=== FILE: README.md ===
# Green Health: verified model of the application core

Green Health is a browser application for plant-disease analysis. Users upload
photos or videos, or attach live screen/webcam streams. They send them for
(mocked) analysis and browse the resulting reports. This project models the
application's deterministic core in Dafny:

- the application state store and its updaters (`AppContext`), with a frame
  property for every updater and the 100-entry bound on live detections;
- the content router from (content type, view mode) to one of six panels;
- the photo analysis glue: the upload filter, report generation and its
  ordering, and the mock random draws as parameters;
- the image and video edit dialogs as small state machines;
- the display arithmetic of the report cards and report details: clock
  formatting, average confidence, frame navigation, the stable disease sort,
  timeline truncation, confidence tiers, size labels, and the enable
  predicates of the analysis panel and the report dialog.

Module layout, in dependency order:

| file | module | models |
|---|---|---|
| wrappers.dfy | `Wrappers` | `Option`, the optional-value type used throughout |
| arith.dfy | `Arith` | monotonicity of multiplication on naturals |
| seqs.dfy | `Seqs` | `filter`, `slice(0, n)` and reversal on sequences, with their laws |
| text.dfy | `Text` | decimal digits, `m:ss` clocks, the plural suffix, `startsWith` |
| types.dfy | `Types` | the records of `src/types/app.ts` |
| store.dfy | `Store` | `AppContext`: state, updaters, the action log and its invariant |
| router.dfy | `Router` | `ContentRouter` |
| photo_analysis.dfy | `PhotoAnalysis` | `PhotoAnalysis`: upload filter, submission, `onApply` |
| image_editor.dfy | `ImageEditor` | `ImageEditModal` |
| video_editor.dfy | `VideoEditor` | `VideoEditModal` |
| video_report.dfy | `VideoReportView` | `VideoReportCard` and `VideoReportDetail` |
| streaming_report.dfy | `StreamingReportView` | `StreamingReportDetail` and `StreamingReportCard` |
| photo_report.dfy | `PhotoReportView` | `PhotoReportCard` |
| preview.dfy | `PreviewLabels` | `VideoPreviewCard` |
| panels.dfy | `Panels` | `AnalysisPanel` and `GenerateReportModal` |

Conventions:

- Each React `setState(prev => …)` updater is a pure function from state to
  state.
- A `Partial<T>` patch is a record of `Option` fields: `Some` means the key is
  present.
- `Math.random()` is an integer `u` with `0 <= u < 2^53`, standing for
  `u / 2^53`. So `Math.floor(Math.random() * n)` is the exact integer
  `u * n / 2^53`.
- Identifiers, object URLs and dates are plain inputs.
- Seconds and byte counts are naturals.
- Ids are not assumed unique anywhere in the store, because the source never
  checks them.
- "Nothing else changes" is `Store.OnlyChanges` for most updaters. The four
  filtering updaters state it as `r == st.(field := r.field)`, which says the
  same for that one field.

## Model

| member | source | states |
|---|---|---|
| Seqs.FilterCounts | src/contexts/AppContext.tsx:88-93 | `filter` keeps every passing element as often as it occurs, and no failing one |
| Seqs.FilterMembers | src/contexts/AppContext.tsx:88-93 | an element is in the filtered list exactly when it is in the input and passes |
| Seqs.FilterIsSubseq | src/contexts/AppContext.tsx:88-93 | the filtered list is a subsequence of the input, so the kept elements keep their relative order |
| Seqs.FilterKeepsAll | src/contexts/AppContext.tsx:88-93 | when every element passes, `filter` returns its input unchanged |
| Seqs.FilterRejectsAll | src/contexts/AppContext.tsx:163-168 | `filter` yields nothing exactly when no element passes |
| Seqs.FilterFirst | src/components/streaming/StreamingReportCard.tsx:11 | the first element `filter` keeps is the input's first passing element: every element before it fails |
| Seqs.FilterAppend | src/contexts/AppContext.tsx:88-93 | filtering distributes over concatenation, so filters after appends can be computed piecewise |
| Seqs.FilterTwice | src/contexts/AppContext.tsx:88-93 | two successive filters equal one filter by the conjunction |
| Seqs.FilterSamePredicate | src/contexts/AppContext.tsx:88-93 | filters by pointwise-equal predicates agree |
| Seqs.Take | src/contexts/AppContext.tsx:159 | `slice(0, n)` has length `min(n, len)` and is a prefix of its input |
| Seqs.TakeOfLongerPrefix | src/contexts/AppContext.tsx:156-161 | cutting to n twice is cutting once: the inner cut of a longer list loses nothing the outer cut would keep |
| Seqs.Reverse | src/components/photo/PhotoAnalysis.tsx:54-89 | reversal has the same length and reads the input back to front |
| Text.NatToString | src/components/video/VideoReportDetail.tsx:41-45 | a natural's decimal text is non-empty, all digits, with no leading zero |
| Text.NatToStringLeadingZero | src/components/video/VideoReportDetail.tsx:41-45 | a decimal text starts with '0' exactly for zero |
| Text.ParseNatToString | src/components/video/VideoReportDetail.tsx:41-45 | reading a natural's decimal text back gives the natural |
| Text.PadTwo | src/components/video/VideoReportDetail.tsx:44 | `padStart(2, '0')` of a number below 100 is two digits reading back as that number |
| Text.FormatClock | src/components/video/VideoReportDetail.tsx:41-45 | `m:ss`: digits, a colon three from the end, minutes reading back as `s div 60`, exactly two seconds digits reading back as `s mod 60 < 60`; the minutes are not zero-padded: a clock starting with '0' is exactly four characters, `0:ss` |
| Text.ClockRoundTrip | src/components/video/VideoReportCard.tsx:20-24 | parsing a formatted clock returns the original seconds |
| Text.ClockInjective | src/components/video/VideoEditModal.tsx:76-80 | different second counts never format to the same clock text |
| Text.PluralSuffix | src/components/streaming/StreamingReportDetail.tsx:78 | the suffix is "s" exactly when the count is not 1, and empty exactly when it is 1 |
| Store.Initial | src/contexts/AppContext.tsx:60-70 | the initial state is photo/analyse with all seven collections empty |
| Store.SetContentType | src/contexts/AppContext.tsx:72-74 | only the content type changes, to the given value |
| Store.SetViewMode | src/contexts/AppContext.tsx:76-78 | only the view mode changes, to the given value |
| Store.SettersIdempotent | src/contexts/AppContext.tsx:72-78 | setting the same content type or view mode twice equals setting it once |
| Store.AddImages | src/contexts/AppContext.tsx:81-86 | the images become old followed by the added ones, with no dedup; nothing else changes |
| Store.RemoveImage | src/contexts/AppContext.tsx:88-93 | exactly the images whose id differs remain, with multiplicities, in their original order; an absent id changes nothing; nothing else changes |
| Store.Merge | src/contexts/AppContext.tsx:95-102 | a shallow merge: each of id, preview, name, size, type, the three adjustments and the crop data takes the patch value when the key is present and keeps the image's value when it is absent; the empty patch is the identity |
| Store.MergeLaws | src/contexts/AppContext.tsx:95-102 | merging a patch twice equals merging once, and two merges equal one merge of the combined patch |
| Store.UpdateImage | src/contexts/AppContext.tsx:95-102 | the list keeps its length; entries whose id differs are unchanged; every matching entry becomes the merge; nothing else changes |
| Store.UpdateAbsentIdIsNoOp | src/contexts/AppContext.tsx:95-102 | updating an id no image has leaves the state unchanged |
| Store.UpdateImageIdempotent | src/contexts/AppContext.tsx:95-102 | applying the same update twice equals applying it once |
| Store.ClearImages | src/contexts/AppContext.tsx:104-106 | only the image list changes, and it becomes empty |
| Store.AddPhotoReport | src/contexts/AppContext.tsx:108-113 | the new report comes first, followed by the old ones; nothing else changes |
| Store.AddVideos | src/contexts/AppContext.tsx:116-121 | the videos become old followed by the added ones; nothing else changes |
| Store.RemoveVideo | src/contexts/AppContext.tsx:123-128 | exactly the videos whose id differs remain, with multiplicities, in order; an absent id changes nothing; nothing else changes |
| Store.ClearVideos | src/contexts/AppContext.tsx:130-132 | only the video list changes, and it becomes empty |
| Store.AddVideoReport | src/contexts/AppContext.tsx:134-139 | the new report comes first, followed by the old ones; nothing else changes |
| Store.AddStreamingSource | src/contexts/AppContext.tsx:142-147 | the sources become old followed by the new one; nothing else changes |
| Store.RemoveStreamingSource | src/contexts/AppContext.tsx:149-154 | exactly the sources whose id differs remain, with multiplicities, in order; an absent id changes nothing; nothing else changes |
| Store.AddRealtimeDetection | src/contexts/AppContext.tsx:156-161 | the new detection is first, the old ones follow shifted by one, and the list is cut at 100 entries; nothing else changes |
| Store.ClearRealtimeDetections | src/contexts/AppContext.tsx:163-168 | exactly the detections of other sources remain, with multiplicities, in order; a source with no detections changes nothing; nothing else changes |
| Store.AddStreamingReport | src/contexts/AppContext.tsx:170-175 | the new report comes first, followed by the old ones; nothing else changes |
| Store.Dispatch | src/contexts/AppContext.tsx:72-175 | no updater takes a state holding at most 100 live detections to one holding more |
| Store.DispatchFrame | src/contexts/AppContext.tsx:72-175 | every updater writes only its own field of the state |
| Store.Run | src/contexts/AppContext.tsx:156-161 | any sequence of updates from a state within the 100-detection bound stays within it |
| Store.RunFrame | src/contexts/AppContext.tsx:72-175 | a field that no update of a sequence writes ends as it began |
| Store.ReachableIsValid | src/contexts/AppContext.tsx:60-175 | every state reachable from the initial one holds at most 100 live detections |
| Store.OnlyChangesTransitive | src/contexts/AppContext.tsx:72-175 | two updates that each change only one field compose into one that changes only that field |
| Store.RealtimeHistory | src/contexts/AppContext.tsx:156-161 | after a series of detections, the list is the reversed series followed by the old list, cut at 100 |
| Store.RealtimeKeepsNewest | src/contexts/AppContext.tsx:156-161 | after at least 100 detections, the list holds exactly the 100 most recent, newest first |
| Store.RemoveThenWithout | src/contexts/AppContext.tsx:88-93 | removing one more id equals filtering by the grown set of removed ids |
| Store.SurvivorsAddStep | src/contexts/AppContext.tsx:81-93 | images added before later removes are filtered like the old ones: filtering `old + added` by the later removed ids, then appending the later survivors, is the old images minus all removed ids followed by all survivors |
| Store.ReplayRemoveStep | src/contexts/AppContext.tsx:88-93 | a remove followed by further operations leaves the old images minus the grown set of removed ids, followed by the survivors of the later adds |
| Store.ReplayImageOpsSurvivors | src/contexts/AppContext.tsx:81-93 | after any mix of adds and removes, the images are the old ones minus every removed id, followed by the added ones that no later remove hit |
| Router.Route | src/components/ContentRouter.tsx:9-37 | every combination of the two closed enums reaches a panel, so the `null` fallback is unreachable; each axis is determined by the panel |
| Router.RouteAxesInverse | src/components/ContentRouter.tsx:13-34 | a panel is routed from a combination exactly when that combination is the panel's own |
| Router.RouteInjective | src/components/ContentRouter.tsx:13-34 | distinct combinations route to distinct panels |
| Router.RouteState | src/components/ContentRouter.tsx:10 | the panel shown recovers the state's content type and view mode |
| Router.PanelFollowsNavigationOnly | src/components/ContentRouter.tsx:10 | two states agreeing on content type and view mode show the same panel, whatever else they hold |
| Router.UpdatersKeepPanel | src/components/ContentRouter.tsx:10-36 | every updater other than the two navigation setters leaves the routed panel unchanged, in any state |
| Router.InitialPanel | src/components/ContentRouter.tsx:13-15 | the initial state shows the photo analysis panel |
| PhotoAnalysis.IsImageFile | src/components/photo/PhotoAnalysis.tsx:18 | a file passes the upload filter exactly when its MIME type starts with "image/", case-sensitively |
| PhotoAnalysis.ImageFilterExamples | src/components/photo/PhotoAnalysis.tsx:18 | "image/png" and the bare "image/" pass; "IMAGE/PNG", "image" without a slash and "video/mp4" are dropped |
| PhotoAnalysis.NewImages | src/components/photo/PhotoAnalysis.tsx:19-29 | the k-th new image takes id and preview from the k-th handle and name, size and type from the k-th kept file, with adjustments 100 and no crop |
| PhotoAnalysis.ImagesFrom | src/components/photo/PhotoAnalysis.tsx:17-29 | the k-th created image copies name, size and type from the k-th image file, has adjustments 100 and no crop, and has an image MIME type |
| PhotoAnalysis.HandleFilesSelected | src/components/photo/PhotoAnalysis.tsx:16-32 | the images kept are exactly the files whose type starts with "image/", in input order, appended to the upload list; with none, the state is unchanged; nothing else changes |
| PhotoAnalysis.ScaledFloor | src/components/photo/PhotoAnalysis.tsx:57-58 | `floor(random * n)` lies in `[0, n)` |
| PhotoAnalysis.MockConfidence | src/components/photo/PhotoAnalysis.tsx:58 | the mock confidence lies in [70, 99] |
| PhotoAnalysis.Pick | src/components/photo/PhotoAnalysis.tsx:57 | a random pick is one of the listed options |
| PhotoAnalysis.MockDetection | src/components/photo/PhotoAnalysis.tsx:55-75 | the mock detection's disease is a listed one, its confidence lies in [70, 99], and it carries a bounding box with x and y in [0, 0.3) and width and height in [0.3, 0.6) |
| PhotoAnalysis.MockReport | src/components/photo/PhotoAnalysis.tsx:77-86 | a report is completed, holds exactly one detection in range, takes url and name from its image, and a listed plant and part |
| PhotoAnalysis.AddPhotoReports | src/components/photo/PhotoAnalysis.tsx:54-88 | one `addPhotoReport` call per generated report grows the report list by exactly their number and changes no other field |
| PhotoAnalysis.AddPhotoReportsReverses | src/components/photo/PhotoAnalysis.tsx:54-89 | prepending reports one at a time leaves them in reverse order ahead of the old ones; nothing else changes |
| PhotoAnalysis.MockReports | src/components/photo/PhotoAnalysis.tsx:54-86 | one report per uploaded image, the k-th built from the k-th image |
| PhotoAnalysis.SubmitAnalysis | src/components/photo/PhotoAnalysis.tsx:34-93 | nothing happens without images; otherwise one report per image is added, the view switches to report, analysing ends, and the uploads stay |
| PhotoAnalysis.SubmitAnalysisOrder | src/components/photo/PhotoAnalysis.tsx:54-92 | the report list becomes the generated reports in reverse upload order, ahead of the old ones |
| PhotoAnalysis.SubmitAnalysisFrame | src/components/photo/PhotoAnalysis.tsx:54-92 | a submission changes no store field besides the report list and the view mode |
| PhotoAnalysis.SubmittedReportsShape | src/components/photo/PhotoAnalysis.tsx:55-86 | each new report is completed with one detection whose confidence lies in [70, 99], and names the image it came from |
| PhotoAnalysis.ApplyEdit | src/components/photo/PhotoAnalysis.tsx:156-160 | `onApply` updates the edited image and does nothing when no image is being edited |
| ImageEditor.Mount | src/components/photo/ImageEditModal.tsx:17-20 | the local values start at the image's adjustments, or 100 without an image; sharpness starts at 100 |
| ImageEditor.Slide | src/components/photo/ImageEditModal.tsx:85-138 | a slider sets its own value only, and values stay within [0, 200] |
| ImageEditor.Reset | src/components/photo/ImageEditModal.tsx:29-34 | reset puts all four values at 100 |
| ImageEditor.ApplyPayload | src/components/photo/ImageEditModal.tsx:36-43 | the payload holds exactly brightness, contrast and saturation, never sharpness or crop data |
| ImageEditor.Sync | src/components/photo/ImageEditModal.tsx:23-27 | as written: with an image shown, the three local values always equal the stored ones afterwards |
| ImageEditor.AppliedPayloadIsStored | src/components/photo/ImageEditModal.tsx:23-43 | as written: after any slider move and a render, the applied payload equals the stored values and changes nothing |
| ImageEditor.ResetIsUndone | src/components/photo/ImageEditModal.tsx:23-34 | as written: a reset is undone by the next render when a stored value is not 100 |
| ImageEditor.SliderMoveUndoneExample | src/components/photo/ImageEditModal.tsx:23-27 | as written: brightness moved from 100 to 150 reads 100 again after one render |
| ImageEditor.SessionSync | src/components/photo/ImageEditModal.tsx:21-27 | corrected: values reload only when a different image is shown, and are otherwise kept |
| ImageEditor.SessionSlide | src/components/photo/ImageEditModal.tsx:85-138 | corrected: a slider move keeps the loaded image's identity |
| ImageEditor.SessionKeepsSliderMove | src/components/photo/ImageEditModal.tsx:23-43 | corrected: a slider move survives the next render and reaches the payload |
| ImageEditor.SessionKeepsReset | src/components/photo/ImageEditModal.tsx:23-34 | corrected: a reset survives the next render |
| VideoEditor.Mount | src/components/video/VideoEditModal.tsx:18-24 | the dialog opens in the reset state (100/100, trim 0–100), which satisfies the trim and adjustment invariant, paused at time 0 with duration 0 |
| VideoEditor.Reset | src/components/video/VideoEditModal.tsx:64-69 | reset restores 100/100 and the full 0–100 trim; playback is untouched |
| VideoEditor.VideoChanged | src/components/video/VideoEditModal.tsx:26-33 | with no video nothing changes; with a video the adjustments return to 100, the trim to the full 0–100 range, the editor is valid again, and playback state is kept |
| VideoEditor.VideoChangedForgetsEdits | src/components/video/VideoEditModal.tsx:26-33 | a new video erases every earlier edit: two editors with the same playback state become equal, and a second change is a no-op |
| VideoEditor.Slide | src/components/video/VideoEditModal.tsx:155-209 | each slider stores its reported value in its own field and keeps every other field; the widget bounds preserve `trimStart < trimEnd` and the [50, 150] adjustment range |
| VideoEditor.ResetUndoesSlide | src/components/video/VideoEditModal.tsx:64-69 | a reset after any slider move gives the same editor as a reset without it |
| VideoEditor.TogglePlay | src/components/video/VideoEditModal.tsx:54-62 | without a mounted element nothing changes; otherwise only the playing flag flips |
| VideoEditor.Progress | src/components/video/VideoEditModal.tsx:131 | the progress is 0 while the duration is 0, and otherwise the elapsed share in percent |
| VideoEditor.Seek | src/components/video/VideoEditModal.tsx:132-135 | a seek happens exactly when the element is mounted and the duration is non-zero; it lands at `value` percent of the duration, which for a value in [0, 100] lies within the video |
| VideoEditor.TimeUpdate | src/components/video/VideoEditModal.tsx:39 | `timeupdate` sets the displayed time to the element's and changes nothing else |
| VideoEditor.SeekThenProgress | src/components/video/VideoEditModal.tsx:131-135 | once the element reports the time a seek set, the timeline slider shows exactly the percentage it was dragged to |
| VideoEditor.Ended | src/components/video/VideoEditModal.tsx:41 | `ended` clears the playing flag and changes nothing else |
| VideoEditor.EndedThenToggle | src/components/video/VideoEditModal.tsx:41-62 | after the video ends, the next toggle of a mounted element starts playing again |
| VideoEditor.ApplyPayload | src/components/video/VideoEditModal.tsx:71-74 | the payload is the empty patch: merging it into any video changes nothing |
| VideoReportView.RoundDiv | src/components/video/VideoReportCard.tsx:13-17 | `Math.round(a / b)` on naturals: the nearest integer, ties up |
| VideoReportView.AvgConfidence | src/components/video/VideoReportCard.tsx:12-18 | 0 without frames; otherwise the rounded mean of each frame's first confidence, with 0 for a frame without detections |
| VideoReportView.AvgConfidenceBounds | src/components/video/VideoReportCard.tsx:12-18 | when every first confidence lies in [0, 100], so does the average |
| VideoReportView.SumBounds | src/components/video/VideoReportCard.tsx:14-16 | the sum of first confidences lies between 0 and 100 times the frame count when each does |
| VideoReportView.PrimaryDetection | src/components/video/VideoReportCard.tsx:11 | exactly `detections[0]` of the first frame, absent exactly when there are no frames or the first frame has no detections |
| VideoReportView.PrimaryDetectionFeedsAverage | src/components/video/VideoReportCard.tsx:11-18 | the first frame adds the primary detection's confidence to the average's sum, or 0 without one; a one-frame report averages to exactly that |
| VideoReportView.StatusLabel | src/components/video/VideoReportCard.tsx:68-69 | completed reads "Completed", analysing "Analyzing...", anything else "Error" |
| VideoReportView.FindFrame | src/components/video/VideoReportDetail.tsx:47-49 | the index of the first frame with the id, or -1 when none has it |
| VideoReportView.CurrentFrameIndex | src/components/video/VideoReportDetail.tsx:47-49 | -1 without a selection, otherwise the first index of the selected id |
| VideoReportView.JumpToFrame | src/components/video/VideoReportDetail.tsx:32-39 | the frame becomes selected and a mounted player is paused |
| VideoReportView.TogglePlay | src/components/video/VideoReportDetail.tsx:22-30 | the playing flag flips exactly when a player is mounted; the selection stays |
| VideoReportView.PrevDisabled | src/components/video/VideoReportDetail.tsx:157 | Prev is live exactly when a selected frame exists in the list and is not the first one; with no selection or an unknown id it is greyed |
| VideoReportView.NextDisabled | src/components/video/VideoReportDetail.tsx:169 | Next is live exactly when there are frames and either nothing known is selected or the selected frame is not the last; with no selection it is live |
| VideoReportView.GoToPrevFrame | src/components/video/VideoReportDetail.tsx:51-55 | a disabled Prev does nothing; otherwise the previous frame is selected; never an out-of-range frame |
| VideoReportView.GoToNextFrame | src/components/video/VideoReportDetail.tsx:57-61 | a disabled Next does nothing; otherwise the next frame is selected; never an out-of-range frame |
| VideoReportView.FindFrameAt | src/components/video/VideoReportDetail.tsx:47-49 | with distinct ids, the index found for the k-th frame is k |
| VideoReportView.NavigationSteps | src/components/video/VideoReportDetail.tsx:51-61 | with distinct ids, enabled Prev and Next move the index by exactly one, and Next then Prev returns to the frame selected before |
| StreamingReportView.Insert | src/components/streaming/StreamingReportDetail.tsx:17 | inserting grows the list by one and keeps its contents plus the new entry |
| StreamingReportView.ConsSorted | src/components/streaming/StreamingReportDetail.tsx:17 | a head at least as large as every entry of a descending list extends it to a descending list |
| StreamingReportView.InsertBounded | src/components/streaming/StreamingReportDetail.tsx:17 | inserting an entry under a bound into a list under that bound keeps every count under it |
| StreamingReportView.InsertKeepsSorted | src/components/streaming/StreamingReportDetail.tsx:17 | inserting into a descending list keeps it descending |
| StreamingReportView.InsertSmallest | src/components/streaming/StreamingReportDetail.tsx:17 | an entry no larger than all others lands at the end |
| StreamingReportView.SortByCount | src/components/streaming/StreamingReportDetail.tsx:17 | the sorted breakdown is non-increasing by count and a permutation of the breakdown |
| StreamingReportView.InsertInFrontTies | src/components/streaming/StreamingReportDetail.tsx:17 | an entry that goes in front has no ties behind it |
| StreamingReportView.ConsKeepsTies | src/components/streaming/StreamingReportDetail.tsx:17 | the same head in front of two lists keeps the difference between their tie classes |
| StreamingReportView.InsertKeepsTies | src/components/streaming/StreamingReportDetail.tsx:17 | inserting keeps the order among entries of each count and puts the new one last among its ties |
| StreamingReportView.SortIsStable | src/components/streaming/StreamingReportDetail.tsx:17 | entries with equal counts keep their original relative order |
| StreamingReportView.SortSortedIsIdentity | src/components/streaming/StreamingReportCard.tsx:11 | sorting an already sorted breakdown changes nothing |
| StreamingReportView.SortedHeadIsMax | src/components/streaming/StreamingReportDetail.tsx:17-18 | the first sorted entry belongs to the breakdown and bounds every count |
| StreamingReportView.SortedHeadIsFirstOfTies | src/components/streaming/StreamingReportCard.tsx:11 | the sorted head is the first entry of the input with its count: every entry before it counts less |
| StreamingReportView.MaxCount | src/components/streaming/StreamingReportDetail.tsx:18 | the scale is at least 1, bounds every count, equals some count when one is positive, and is 1 when all are 0 |
| StreamingReportView.DiseaseTypes | src/components/streaming/StreamingReportDetail.tsx:54 | the "Disease Types" figure is the number of breakdown entries |
| StreamingReportView.Timeline | src/components/streaming/StreamingReportDetail.tsx:95 | the timeline lists the first min(20, n) detections in stored order |
| StreamingReportView.MoreDetections | src/components/streaming/StreamingReportDetail.tsx:127-131 | the "+N more" line appears exactly when there are over 20 detections, with a positive N |
| StreamingReportView.TimelineAccountsForAll | src/components/streaming/StreamingReportDetail.tsx:95-131 | listed plus announced detections equal all detections |
| StreamingReportView.ConfidenceTier | src/components/streaming/StreamingReportDetail.tsx:100-104 | high exactly from 90, medium exactly from 70 below 90, low exactly below 70 |
| StreamingReportView.TierMonotone | src/components/streaming/StreamingReportDetail.tsx:117-121 | a higher confidence never gets a lower tier |
| StreamingReportView.TopDisease | src/components/streaming/StreamingReportCard.tsx:11-54 | the card's report is the input with only its breakdown replaced by the sorted breakdown; the top disease is absent exactly when the breakdown is empty and is otherwise the sorted head, an entry of maximal count |
| StreamingReportView.TopDiseaseFirstOfTies | src/components/streaming/StreamingReportCard.tsx:11 | among diseases tied for the largest count, the card names the one listed first |
| StreamingReportView.TopDiseaseIdempotent | src/components/streaming/StreamingReportCard.tsx:11 | rendering the card a second time gives the same report and top disease |
| PhotoReportView.MainDetection | src/components/photo/PhotoReportCard.tsx:12 | the first detection, absent exactly when there is none |
| PhotoReportView.ConfidenceColor | src/components/photo/PhotoReportCard.tsx:13-17 | destructive exactly from 80, warning exactly from 50 below 80, success below 50 or without a detection |
| PhotoReportView.RenderCard | src/components/photo/PhotoReportCard.tsx:38-93 | the overlay and detection block show exactly when there are detections, the no-disease note exactly when there are none, and the default badge and check icon exactly when completed |
| PhotoReportView.CardShowsOneOutcome | src/components/photo/PhotoReportCard.tsx:66-93 | exactly one of the detection block and the no-disease note is shown |
| PhotoReportView.ColorMonotone | src/components/photo/PhotoReportCard.tsx:13-17 | a higher confidence is never coloured milder |
| PreviewLabels.Tenths | src/components/video/VideoPreviewCard.tsx:14-15 | `toFixed(1)` of an exact quotient: the nearest tenth, ties up |
| PreviewLabels.DecimalText | src/components/video/VideoPreviewCard.tsx:14-15 | a tenths count prints as digits, a point and one digit, and the figure reads back as that many tenths; the whole part has no leading zero: the figure starts with '0' exactly below ten tenths, and then is three characters, `0.d` |
| PreviewLabels.NearestTenthBounds | src/components/video/VideoPreviewCard.tsx:14 | a quotient of at least one rounds to at least 1.0, and one below 1024 to at most 1024.0 |
| PreviewLabels.UnitSuffix | src/components/video/VideoPreviewCard.tsx:14-15 | a number followed by "KB" or "MB" ends with that unit and no other |
| PreviewLabels.ByteUnitSuffix | src/components/video/VideoPreviewCard.tsx:13 | a number followed by "B" ends with " B" and not with " KB" or " MB" |
| PreviewLabels.FormatSize | src/components/video/VideoPreviewCard.tsx:12-16 | the label ends in " B" exactly below 1024 bytes, in " KB" exactly from 1024 below 1048576, and in " MB" exactly from 1048576; the label starts with '0' exactly for 0 bytes, so no figure carries a leading zero |
| PreviewLabels.SizeFigureReadsBack | src/components/video/VideoPreviewCard.tsx:12-16 | a byte label reads back as the byte count; a kilobyte or megabyte label's figure reads back as the size in that unit to the nearest tenth, ties up; a kilobyte figure lies between 1.0 and 1024.0 |
| PreviewLabels.FormatDuration | src/components/video/VideoPreviewCard.tsx:18-23 | "--:--" exactly when the duration is missing or 0; otherwise the same clock as the editor's `formatTime` (VideoEditModal.tsx:76-80), which parses back to the duration and has unpadded minutes |
| Panels.RenderAnalysisPanel | src/components/shared/AnalysisPanel.tsx:24-61 | the button is disabled exactly when vetoed, empty or analysing; the hint shows exactly when empty; the button reads "Analyzing..." exactly while analysing; the count line is exactly the decimal count, the item label with "s" unless the count is 1, and " selected" |
| Panels.SubmitEnabledExactly | src/components/shared/AnalysisPanel.tsx:42-61 | the hint and the spinner both imply a disabled button, and the button is enabled exactly without veto, hint or spinner |
| Panels.GenerateDisabled | src/components/streaming/GenerateReportModal.tsx:104 | against `handleGenerate`, a greyed button stands for a click that could never make a request, whatever source is attached; a live button stands for one that makes a request for every attached source |
| Panels.HandleGenerate | src/components/streaming/GenerateReportModal.tsx:23-27 | a request for the source id and both dates is made, and the dialog closes, exactly when source and both dates are present |
| Panels.EnabledButtonNeedsOnlySource | src/components/streaming/GenerateReportModal.tsx:23-27 | with the button enabled, a request is made exactly when a source is attached |
| Panels.ReversedRangeAccepted | src/components/streaming/GenerateReportModal.tsx:23-27 | a start date after the end date goes through unchanged |

## Left out

- Media acquisition and stream binding (`getUserMedia`, `getDisplayMedia`, `srcObject`) are browser I/O; a source's stream is an opaque handle. The trimmed-name guard of `AddSourceModal` is not part of this model.
- `crypto.randomUUID`, `URL.createObjectURL`, `new Date()` and `Math.random()` are inputs, not behaviour. Their values arrive as parameters.
- The random draws model `Math.random()` as an exact dyadic fraction. Floating-point rounding in `Math.random() * n` is not modelled.
- PhotoAnalysis.MockDetection: the mock bounding box is computed in exact reals from the draws; the floating-point rounding of `Math.random() * 0.3` and `0.3 + …` is not modelled.
- Percentage bar widths in the streaming detail are left out, because they are floating point.
- Date and time rendering (`toLocaleDateString`, `format(…, 'PPP')`) is left out.
- The 2-second `setTimeout` and the `await` in `handleSubmitAnalysis` are not modelled. The submission is one atomic step, so a race with a removal during the wait is out of scope.
- Late `loadedmetadata` events are not modelled, for the same reason.
- The `loadedmetadata` event copies the element's duration into state; the duration is a parameter of the video editor. `timeupdate` and `ended` are modelled as `VideoEditor.TimeUpdate` and `VideoEditor.Ended`.
- How streaming reports are built (date filtering, aggregation, mean confidence) is not part of this model. The views consume `aggregatedStats` as given.
- Layout and markup are left out: headers, sidebar, tabs, empty states, the upload zone's drag state, the stub panels, and the report lists.
- `formatSize` in `ImagePreviewCard` is covered by `PreviewLabels.FormatSize` and not modelled separately.
- The 80/50 thresholds in `PhotoReportDetail` are covered by `PhotoReportView.ConfidenceColor` and not modelled separately.
- The 90/70 tiers in `RealtimeNotifications` are covered by `StreamingReportView.ConfidenceTier` and not modelled separately.
- A patch key explicitly set to `undefined` is not modelled. Such a key overwrites the field with `undefined` in a shallow merge. The model's patches can only have a key present with a value, or absent.
- Each `ImageFile` and `VideoFile` of the source also holds the browser `File` handle it came from (`UploadedFile.file`). The handle is opaque: no modelled code reads it beyond the name, size and type already copied into the record, so it is left out.
- Text.FormatClock: works on whole seconds. The source floors fractional seconds first, and for non-negative inputs `floor(s mod 60)` equals the whole-second result.
- VideoEditor.Progress: uses exact reals. Floating-point division is not modelled.
- VideoEditor.Seek: uses exact reals. Floating-point multiplication is not modelled.
- PreviewLabels.FormatDuration: takes whole seconds. A fractional duration below one second is truthy in the source and would print "0:00", but here it has no representation.
- PreviewLabels.Tenths: assumes the byte count is below 2^53, where `bytes / 1024` and `bytes / 1048576` are exact doubles.
- Confidences, counts and sizes are non-negative integers in the model. The source's `number` could hold negative or fractional values that no code path produces.
- React re-render scheduling is not modelled. The render-time sync of `ImageEditModal` is a normalisation step applied after each event.

## Findings

| source | as written | input that shows it | evidently intended | confidence | as-written member | corrected member |
|---|---|---|---|---|---|---|
| src/components/photo/ImageEditModal.tsx:23-27 | the "reset when image changes" check compares the three local values with the stored ones on every render and copies the stored ones back whenever they differ | an image stored with brightness 100; the brightness slider is moved to 150; the next render sets it back to 100, so Apply submits 100 (and Reset is likewise undone when a stored value is not 100) | reload the local values only when a different image is shown, keeping the user's edits to the current one | not executed | ImageEditor.Sync | ImageEditor.SessionSync |

=== FILE: arith.dfy ===
/** Monotonicity facts about multiplication of naturals that the solver does
    not find on its own inside larger proofs. */
module Arith {
  lemma MulMonotone(a: nat, b: nat, c: nat)
    requires a <= b
    ensures a * c <= b * c
  {
  }

  /** A common factor can be cancelled from a strict inequality. */
  lemma MulCancel(d: nat, a: nat, b: nat)
    requires d * a < d * b
    ensures a < b
  {
    if b <= a {
      MulMonotone(b, a, d);
    }
  }
}

=== FILE: image_editor.dfy ===
/** The image edit dialog: four local slider values, the render-time sync
    against the stored image, reset, and the payload handed to the apply
    callback. The sync as written compares values rather than the image's
    identity; `SessionSync` is the identity-based sync the comment beside it
    describes. */
module ImageEditor {
  import opened Wrappers
  import opened Types
  import Store

  const SliderMin: int := 0
  const SliderMax: int := 200
  const Neutral: int := 100

  datatype Adjustments = Adjustments(brightness: int, contrast: int, saturation: int, sharpness: int)

  datatype Slider = BrightnessSlider | ContrastSlider | SaturationSlider | SharpnessSlider

  /** All four values lie on the sliders' [0, 200] scale. */
  predicate InSliderRange(a: Adjustments) {
    && SliderMin <= a.brightness <= SliderMax
    && SliderMin <= a.contrast <= SliderMax
    && SliderMin <= a.saturation <= SliderMax
    && SliderMin <= a.sharpness <= SliderMax
  }

  /** The stored adjustments of an image lie on the sliders' scale. */
  predicate ImageInRange(img: ImageFile) {
    && SliderMin <= img.brightness <= SliderMax
    && SliderMin <= img.contrast <= SliderMax
    && SliderMin <= img.saturation <= SliderMax
  }

  /** The three stored adjustments agree with the local values. */
  predicate ShowsStored(a: Adjustments, img: ImageFile) {
    a.brightness == img.brightness && a.contrast == img.contrast && a.saturation == img.saturation
  }

  /** The `useState` initial values: the image's adjustments (100 each with
      no image); sharpness always starts at 100. */
  function Mount(image: Option<ImageFile>): (a: Adjustments)
    ensures image.Some? ==> ShowsStored(a, image.value)
    ensures image.None? ==> a.brightness == a.contrast == a.saturation == Neutral
    ensures a.sharpness == Neutral
    ensures image.Some? && ImageInRange(image.value) ==> InSliderRange(a)
    ensures image.None? ==> InSliderRange(a)
  {
    match image
    case Some(img) => Adjustments(img.brightness, img.contrast, img.saturation, Neutral)
    case None => Adjustments(Neutral, Neutral, Neutral, Neutral)
  }

  /** A slider's `onValueChange`: the widget only reports integers within
      [0, 200]; exactly the one value moves. */
  function Slide(a: Adjustments, s: Slider, v: int): (r: Adjustments)
    requires SliderMin <= v <= SliderMax
    ensures s == BrightnessSlider ==> r == a.(brightness := v)
    ensures s == ContrastSlider ==> r == a.(contrast := v)
    ensures s == SaturationSlider ==> r == a.(saturation := v)
    ensures s == SharpnessSlider ==> r == a.(sharpness := v)
    ensures InSliderRange(a) ==> InSliderRange(r)
  {
    match s
    case BrightnessSlider => a.(brightness := v)
    case ContrastSlider => a.(contrast := v)
    case SaturationSlider => a.(saturation := v)
    case SharpnessSlider => a.(sharpness := v)
  }

  /** `handleReset`: every slider back to 100. */
  function Reset(a: Adjustments): (r: Adjustments)
    ensures r.brightness == r.contrast == r.saturation == r.sharpness == Neutral
    ensures InSliderRange(r)
  {
    Adjustments(Neutral, Neutral, Neutral, Neutral)
  }

  /** `handleApply`'s payload: brightness, contrast and saturation, and no
      other key (never sharpness, never a crop). */
  function ApplyPayload(a: Adjustments): (p: Store.ImagePatch)
    ensures p.brightness == Some(a.brightness)
    ensures p.contrast == Some(a.contrast)
    ensures p.saturation == Some(a.saturation)
    ensures p.id.None? && p.preview.None? && p.name.None? && p.size.None? && p.mimeType.None?
    ensures p.cropData.None?
  {
    Store.EmptyImagePatch.(brightness := Some(a.brightness), contrast := Some(a.contrast),
                           saturation := Some(a.saturation))
  }

  // ---------------------------------------------------------------- as written

  /** The render-time sync as written: while an image is shown, any local value
      that differs from the stored one sends all three back to the stored
      values; sharpness is never touched. */
  function Sync(image: Option<ImageFile>, a: Adjustments): (r: Adjustments)
    ensures image.None? ==> r == a
    ensures image.Some? ==> ShowsStored(r, image.value)
    ensures r.sharpness == a.sharpness
    ensures InSliderRange(a) && (image.Some? ==> ImageInRange(image.value)) ==> InSliderRange(r)
  {
    match image
    case Some(img) =>
      if a.brightness != img.brightness || a.contrast != img.contrast || a.saturation != img.saturation
      then a.(brightness := img.brightness, contrast := img.contrast, saturation := img.saturation)
      else a
    case None => a
  }

  /** With the sync as written, whatever the user does to the sliders, once the
      dialog renders again the payload it applies is the image's stored
      adjustments, so applying it leaves the image as it was. */
  lemma {:induction false} AppliedPayloadIsStored(img: ImageFile, a: Adjustments, s: Slider, v: int)
    requires SliderMin <= v <= SliderMax
    ensures var p := ApplyPayload(Sync(Some(img), Slide(a, s, v)));
            && p.brightness == Some(img.brightness)
            && p.contrast == Some(img.contrast)
            && p.saturation == Some(img.saturation)
            && Store.Merge(img, p) == img
  {
    var p := ApplyPayload(Sync(Some(img), Slide(a, s, v)));
    assert Store.Merge(img, p).cropData == img.cropData;
  }

  /** Reset is undone the same way when the stored values are not all 100. */
  lemma ResetIsUndone(img: ImageFile, a: Adjustments)
    requires img.brightness != Neutral
    ensures Sync(Some(img), Reset(a)).brightness == img.brightness != Neutral
  {
  }

  /** A concrete run: brightness 100 stored, slider moved to 150, one render,
      and the slider shows 100 again. */
  lemma SliderMoveUndoneExample()
    ensures var img := ImageFile("a", "blob:a", "leaf.png", 1, "image/png", 100, 100, 100, None);
            var moved := Slide(Mount(Some(img)), BrightnessSlider, 150);
            moved.brightness == 150 && Sync(Some(img), moved).brightness == 100
  {
  }

  // ---------------------------------------------------------------- corrected

  /** The dialog's local state with the identity of the image its values were
      last loaded from. */
  datatype Session = Session(loadedFrom: Option<string>, values: Adjustments)

  /** Sync on identity: reload the three values only when a different image
      (by id) is shown than the one they were loaded from. */
  function SessionSync(image: Option<ImageFile>, s: Session): (r: Session)
    ensures image.None? ==> r == s
    ensures image.Some? && s.loadedFrom != Some(image.value.id) ==>
              ShowsStored(r.values, image.value) && r.loadedFrom == Some(image.value.id)
    ensures image.Some? && s.loadedFrom == Some(image.value.id) ==> r == s
    ensures r.values.sharpness == s.values.sharpness
  {
    match image
    case Some(img) =>
      if s.loadedFrom != Some(img.id) then
        Session(Some(img.id), s.values.(brightness := img.brightness, contrast := img.contrast,
                                        saturation := img.saturation))
      else s
    case None => s
  }

  function SessionSlide(s: Session, sl: Slider, v: int): (r: Session)
    requires SliderMin <= v <= SliderMax
    ensures r.loadedFrom == s.loadedFrom
    ensures r.values == Slide(s.values, sl, v)
  {
    s.(values := Slide(s.values, sl, v))
  }

  /** With the identity-based sync a slider move survives the next render and
      reaches the applied image. */
  lemma {:induction false} SessionKeepsSliderMove(img: ImageFile, s: Session, v: int)
    requires SliderMin <= v <= SliderMax
    ensures var synced := SessionSync(Some(img), s);
            var edited := SessionSync(Some(img), SessionSlide(synced, BrightnessSlider, v));
            && edited.values.brightness == v
            && Store.Merge(img, ApplyPayload(edited.values)).brightness == v
  {
    var synced := SessionSync(Some(img), s);
    assert synced.loadedFrom == Some(img.id);
    var moved := SessionSlide(synced, BrightnessSlider, v);
    assert SessionSync(Some(img), moved) == moved;
  }

  /** With the identity-based sync a reset survives the next render. */
  lemma SessionKeepsReset(img: ImageFile, s: Session)
    requires s.loadedFrom == Some(img.id)
    ensures SessionSync(Some(img), s.(values := Reset(s.values))).values == Reset(s.values)
  {
  }
}

=== FILE: panels.dfy ===
/** The shared analysis panel and the streaming report dialog. */
module Panels {
  import opened Wrappers
  import opened Text
  import opened Types

  // ---------------------------------------------------------------- analysis panel

  datatype AnalysisPanelView = AnalysisPanelView(
    countLine: string,
    buttonDisabled: bool,
    buttonText: string,
    spinner: bool,
    uploadHint: bool)

  function RenderAnalysisPanel(itemCount: nat, itemLabel: string, isAnalyzing: bool,
                               disabled: bool): (v: AnalysisPanelView)
    ensures v.buttonDisabled <==> disabled || itemCount == 0 || isAnalyzing
    ensures v.uploadHint <==> itemCount == 0
    ensures v.spinner <==> isAnalyzing
    ensures v.buttonText == (if isAnalyzing then "Analyzing..." else "Send for Analysis")
    ensures var n := NatToString(itemCount);
            && |n| <= |v.countLine|
            && v.countLine[..|n|] == n
            && |v.countLine| == |n| + 1 + |itemLabel| + (if itemCount == 1 then 0 else 1) + |" selected"|
    ensures v.countLine == NatToString(itemCount) + " " + itemLabel + PluralSuffix(itemCount) + " selected"
  {
    var n := NatToString(itemCount);
    var line := n + " " + itemLabel + PluralSuffix(itemCount) + " selected";
    assert line[..|n|] == n;
    AnalysisPanelView(
      countLine := line,
      buttonDisabled := disabled || itemCount == 0 || isAnalyzing,
      buttonText := if isAnalyzing then "Analyzing..." else "Send for Analysis",
      spinner := isAnalyzing,
      uploadHint := itemCount == 0)
  }

  /** Whenever the upload hint shows, and whenever an analysis runs, the
      button cannot be pressed; with items, no run and no outside veto it can. */
  lemma SubmitEnabledExactly(itemCount: nat, itemLabel: string, isAnalyzing: bool, disabled: bool)
    ensures var v := RenderAnalysisPanel(itemCount, itemLabel, isAnalyzing, disabled);
            && (v.uploadHint ==> v.buttonDisabled)
            && (v.spinner ==> v.buttonDisabled)
            && (!v.buttonDisabled <==> !disabled && !v.uploadHint && !v.spinner)
  {
  }

  // ---------------------------------------------------------------- report dialog

  /** A calendar day; the dialog passes both dates through unexamined. */
  type Date = Timestamp

  datatype GenerateRequest = GenerateRequest(sourceId: string, fromDate: Date, toDate: Date)

  /** Pressing it: the request made (if any) and whether the dialog closes. */
  function HandleGenerate(source: Option<StreamingSource>, fromDate: Option<Date>,
                          toDate: Option<Date>): (r: (Option<GenerateRequest>, bool))
    ensures r.0.Some? <==> source.Some? && fromDate.Some? && toDate.Some?
    ensures r.1 <==> r.0.Some?
    ensures r.0.Some? ==> r.0.value == GenerateRequest(source.value.id, fromDate.value, toDate.value)
  {
    if source.None? || fromDate.None? || toDate.None? then (None, false)
    else (Some(GenerateRequest(source.value.id, fromDate.value, toDate.value)), true)
  }

  /** The "Generate Report" button is greyed out while a date is cleared:
      a greyed-out button could not have made a request, and a live one makes
      a request for any attached source. */
  function GenerateDisabled(fromDate: Option<Date>, toDate: Option<Date>): (d: bool)
    ensures d ==> forall s: Option<StreamingSource> :: HandleGenerate(s, fromDate, toDate).0.None?
    ensures !d ==> forall s: Option<StreamingSource> :: s.Some? ==> HandleGenerate(s, fromDate, toDate).0.Some?
  {
    fromDate.None? || toDate.None?
  }

  /** An enabled button requests a report exactly when a source is attached;
      the order of the two dates is not checked. */
  lemma EnabledButtonNeedsOnlySource(source: Option<StreamingSource>, fromDate: Option<Date>,
                                     toDate: Option<Date>)
    requires !GenerateDisabled(fromDate, toDate)
    ensures HandleGenerate(source, fromDate, toDate).0.Some? <==> source.Some?
    ensures source.Some? ==> HandleGenerate(source, fromDate, toDate).0.value.fromDate == fromDate.value
  {
  }

  /** A reversed range goes through unchanged. */
  lemma ReversedRangeAccepted(source: StreamingSource, fromDate: Date, toDate: Date)
    requires toDate < fromDate
    ensures HandleGenerate(Some(source), Some(fromDate), Some(toDate)).0
            == Some(GenerateRequest(source.id, fromDate, toDate))
  {
  }
}

=== FILE: photo_analysis.dfy ===
/** The photo upload panel: turning selected files into uploaded images, the
    mocked analysis that produces one report per uploaded image, and the edit
    dialog's apply callback. Random draws, fresh ids, object URLs and the
    clock are inputs. */
module PhotoAnalysis {
  import opened Wrappers
  import opened Seqs
  import opened Text
  import opened Types
  import opened Arith
  import Store

  // ---------------------------------------------------------------- file selection

  /** The attributes of a browser `File` that the handler reads. */
  datatype SelectedFile = SelectedFile(name: string, size: nat, mimeType: string)

  /** What the browser supplies for one accepted file: `crypto.randomUUID()`
      and `URL.createObjectURL(file)`. */
  datatype FileHandles = FileHandles(id: string, preview: string)

  /** Adjustment value every new image starts with. */
  const NeutralAdjustment: int := 100

  /** The case-sensitive MIME-prefix test the handler filters with. */
  function IsImageFile(f: SelectedFile): (b: bool)
    ensures b <==> "image/" <= f.mimeType
  {
    StartsWith(f.mimeType, "image/")
  }

  /** The test looks at the MIME type only, and exactly: an upper-case type
      or a bare "image" is rejected, whatever the file name says. */
  lemma ImageFilterExamples(name: string, size: nat)
    ensures IsImageFile(SelectedFile(name, size, "image/png"))
    ensures IsImageFile(SelectedFile(name, size, "image/"))
    ensures !IsImageFile(SelectedFile(name, size, "IMAGE/PNG"))
    ensures !IsImageFile(SelectedFile(name, size, "image"))
    ensures !IsImageFile(SelectedFile(name, size, "video/mp4"))
  {
    assert "image/png"[..6] == "image/";
    assert "IMAGE/PNG"[0] != "image/"[0];
    assert "video/mp4"[0] != "image/"[0];
  }

  function NewImage(f: SelectedFile, h: FileHandles): ImageFile {
    ImageFile(h.id, h.preview, f.name, f.size, f.mimeType,
              NeutralAdjustment, NeutralAdjustment, NeutralAdjustment, None)
  }

  /** The `map` step: one new image per kept file, the k-th taking the k-th
      of `handles`. */
  function NewImages(kept: seq<SelectedFile>, handles: seq<FileHandles>): (r: seq<ImageFile>)
    requires |handles| == |kept|
    ensures |r| == |kept|
    ensures forall k :: 0 <= k < |r| ==>
              && r[k].id == handles[k].id && r[k].preview == handles[k].preview
              && r[k].name == kept[k].name && r[k].size == kept[k].size
              && r[k].mimeType == kept[k].mimeType
    ensures forall k :: 0 <= k < |r| ==>
              && r[k].brightness == NeutralAdjustment
              && r[k].contrast == NeutralAdjustment
              && r[k].saturation == NeutralAdjustment
              && r[k].cropData.None?
  {
    if |kept| == 0 then []
    else [NewImage(kept[0], handles[0])] + NewImages(kept[1..], handles[1..])
  }

  /** The uploaded images made from `files`: the image files are kept in
      order, then each becomes a new image. */
  function ImagesFrom(files: seq<SelectedFile>, handles: seq<FileHandles>): (r: seq<ImageFile>)
    requires |handles| == |Filter(files, IsImageFile)|
    ensures |r| == |handles|
    ensures forall k :: 0 <= k < |r| ==>
              var f := Filter(files, IsImageFile)[k];
              && r[k].id == handles[k].id && r[k].preview == handles[k].preview
              && r[k].name == f.name && r[k].size == f.size && r[k].mimeType == f.mimeType
    ensures forall k :: 0 <= k < |r| ==>
              && r[k].brightness == NeutralAdjustment
              && r[k].contrast == NeutralAdjustment
              && r[k].saturation == NeutralAdjustment
              && r[k].cropData.None?
    ensures forall k :: 0 <= k < |r| ==> StartsWith(r[k].mimeType, "image/")
  {
    var kept := Filter(files, IsImageFile);
    assert forall k :: 0 <= k < |kept| ==> IsImageFile(kept[k]) by {
      FilterMembers(files, IsImageFile);
      forall k | 0 <= k < |kept| ensures IsImageFile(kept[k]) {
        assert kept[k] in kept;
      }
    }
    NewImages(kept, handles)
  }

  /** `handleFilesSelected`: exactly the image files, in input order, are
      appended to the uploaded images in one `addImages` call (possibly with
      nothing to add). */
  function HandleFilesSelected(st: Store.AppState, files: seq<SelectedFile>, handles: seq<FileHandles>)
    : (r: Store.AppState)
    requires |handles| == |Filter(files, IsImageFile)|
    ensures |r.uploadedImages| == |st.uploadedImages| + |Filter(files, IsImageFile)|
    ensures r.uploadedImages[..|st.uploadedImages|] == st.uploadedImages
    ensures r.uploadedImages[|st.uploadedImages|..] == ImagesFrom(files, handles)
    ensures (forall f :: f in files ==> !IsImageFile(f)) ==> r == st
    ensures Store.OnlyChanges(st, r, Store.ImagesPart)
  {
    FilterRejectsAll(files, IsImageFile);
    Store.AddImages(st, ImagesFrom(files, handles))
  }

  // ---------------------------------------------------------------- mock analysis

  /** `Math.random()` is modelled as `u / RandomScale` for a whole `u` below
      the scale (a 53-bit fraction). */
  const RandomScale: nat := 0x20_0000_0000_0000

  predicate IsDraw(u: nat) {
    u < RandomScale
  }

  /** Scaling a fraction below one by `n` and flooring stays below `n`. */
  lemma ScaledFloorBelow(u: nat, n: nat)
    requires IsDraw(u) && n > 0
    ensures u * n / RandomScale < n
  {
    var k := u * n / RandomScale;
    var rem := u * n % RandomScale;
    assert u * n == k * RandomScale + rem;
    MulMonotone(u, RandomScale - 1, n);
  }

  /** `Math.floor(Math.random() * n)`. */
  function ScaledFloor(u: nat, n: nat): (k: nat)
    requires IsDraw(u) && n > 0
    ensures k < n
    ensures k * RandomScale <= u * n < (k + 1) * RandomScale
  {
    ScaledFloorBelow(u, n);
    u * n / RandomScale
  }

  const MockDiseases: seq<string> :=
    ["Leaf Blight", "Powdery Mildew", "Root Rot", "Bacterial Spot", "Mosaic Virus"]
  const MockPlants: seq<string> := ["Tomato", "Corn", "Wheat", "Rice", "Soybean"]
  const MockParts: seq<string> := ["Leaf", "Stem", "Root", "Fruit", "Flower"]
  const MockSymptoms: seq<string> :=
    ["Yellow spots on leaves", "Wilting edges", "Brown discoloration"]
  const MockRecommendations: seq<string> :=
    ["Apply fungicide treatment", "Improve drainage", "Remove affected leaves"]

  /** Lowest and highest confidence the mock can produce. */
  const MinMockConfidence: int := 70
  const MaxMockConfidence: int := 99

  /** The inputs the analysis draws for one image, in the order it draws them. */
  datatype ImageDraws = ImageDraws(
    detectionId: string,
    disease: nat,
    confidence: nat,
    boxX: nat,
    boxY: nat,
    boxWidth: nat,
    boxHeight: nat,
    reportId: string,
    createdAt: Timestamp,
    plant: nat,
    part: nat)

  predicate ValidDraws(d: ImageDraws) {
    IsDraw(d.disease) && IsDraw(d.confidence) && IsDraw(d.boxX) && IsDraw(d.boxY)
    && IsDraw(d.boxWidth) && IsDraw(d.boxHeight) && IsDraw(d.plant) && IsDraw(d.part)
  }

  /** The value `Math.random()` returned, as an exact real in [0, 1). */
  function Fraction(u: nat): (f: real)
    requires IsDraw(u)
    ensures 0.0 <= f < 1.0
  {
    u as real / RandomScale as real
  }

  /** `Math.floor(Math.random() * 30) + 70`. */
  function MockConfidence(u: nat): (c: int)
    requires IsDraw(u)
    ensures MinMockConfidence <= c <= MaxMockConfidence
  {
    ScaledFloor(u, 30) + 70
  }

  /** A uniformly drawn element of a non-empty list. */
  function Pick(options: seq<string>, u: nat): (s: string)
    requires IsDraw(u) && |options| > 0
    ensures s in options
  {
    options[ScaledFloor(u, |options|)]
  }

  function MockDetection(d: ImageDraws): (r: DiseaseDetection)
    requires ValidDraws(d)
    ensures MinMockConfidence <= r.confidence <= MaxMockConfidence
    ensures r.disease in MockDiseases
    ensures r.boundingBox.Some?
    ensures var box := r.boundingBox.value;
            && 0.0 <= box.x < 0.3 && 0.0 <= box.y < 0.3
            && 0.3 <= box.width < 0.6 && 0.3 <= box.height < 0.6
  {
    DiseaseDetection(
      d.detectionId,
      Pick(MockDiseases, d.disease),
      MockConfidence(d.confidence),
      Some(BoundingBox(
        Fraction(d.boxX) * 0.3, Fraction(d.boxY) * 0.3,
        0.3 + Fraction(d.boxWidth) * 0.3, 0.3 + Fraction(d.boxHeight) * 0.3)),
      MockSymptoms,
      MockRecommendations)
  }

  /** The report the analysis builds for one uploaded image. */
  function MockReport(image: ImageFile, d: ImageDraws): (r: PhotoReport)
    requires ValidDraws(d)
    ensures r.status == Completed
    ensures |r.detections| == 1
    ensures MinMockConfidence <= r.detections[0].confidence <= MaxMockConfidence
    ensures r.imageUrl == image.preview && r.imageName == image.name
    ensures r.plantSpecies in MockPlants && r.affectedPart in MockParts
  {
    PhotoReport(
      d.reportId, d.createdAt, image.preview, image.name,
      Pick(MockPlants, d.plant), Pick(MockParts, d.part),
      [MockDetection(d)], Completed)
  }

  /** `addPhotoReport` called on each report in turn. */
  function AddPhotoReports(st: Store.AppState, reports: seq<PhotoReport>): (r: Store.AppState)
    ensures |r.photoReports| == |st.photoReports| + |reports|
    ensures r == st.(photoReports := r.photoReports)
    decreases |reports|
  {
    if |reports| == 0 then st else AddPhotoReports(Store.AddPhotoReport(st, reports[0]), reports[1..])
  }

  /** Prepending reports one at a time leaves them newest first, ahead of the
      older reports, and touches nothing else. */
  lemma {:induction false} AddPhotoReportsReverses(st: Store.AppState, reports: seq<PhotoReport>)
    ensures AddPhotoReports(st, reports).photoReports == Reverse(reports) + st.photoReports
    ensures Store.OnlyChanges(st, AddPhotoReports(st, reports), Store.PhotoReportsPart)
    decreases |reports|
  {
    if |reports| == 0 {
      assert Reverse(reports) + st.photoReports == st.photoReports;
    } else {
      var next := Store.AddPhotoReport(st, reports[0]);
      AddPhotoReportsReverses(next, reports[1..]);
      Store.OnlyChangesTransitive(st, next, AddPhotoReports(next, reports[1..]), Store.PhotoReportsPart);
      assert Reverse(reports) == Reverse(reports[1..]) + [reports[0]];
      ConcatAssoc(Reverse(reports[1..]), [reports[0]], st.photoReports);
    }
  }

  /** The panel's own state: the image open in the edit dialog and the busy flag. */
  datatype PanelState = PanelState(editing: Option<ImageFile>, isAnalyzing: bool)

  /** One mock report per image, in upload order. */
  function MockReports(images: seq<ImageFile>, draws: seq<ImageDraws>): (r: seq<PhotoReport>)
    requires |draws| == |images|
    requires forall i :: 0 <= i < |draws| ==> ValidDraws(draws[i])
    ensures |r| == |images|
    ensures forall i :: 0 <= i < |r| ==> r[i] == MockReport(images[i], draws[i])
  {
    seq(|images|, i requires 0 <= i < |images| => MockReport(images[i], draws[i]))
  }

  /** `handleSubmitAnalysis` run to completion: with nothing uploaded nothing
      happens; otherwise each uploaded image's report is prepended in turn,
      the view switches to the reports and the uploads stay. */
  function SubmitAnalysis(st: Store.AppState, panel: PanelState, draws: seq<ImageDraws>)
    : (r: (Store.AppState, PanelState))
    requires |draws| == |st.uploadedImages|
    requires forall i :: 0 <= i < |draws| ==> ValidDraws(draws[i])
    ensures |st.uploadedImages| == 0 ==> r == (st, panel)
    ensures |st.uploadedImages| > 0 ==> r.0.viewMode == Report && !r.1.isAnalyzing
    ensures |r.0.photoReports| == |st.photoReports| + |st.uploadedImages|
    ensures r.0.uploadedImages == st.uploadedImages
    ensures r.1.editing == panel.editing
  {
    var images := st.uploadedImages;
    if |images| == 0 then (st, panel)
    else
      var withReports := AddPhotoReports(st, MockReports(images, draws));
      AddPhotoReportsReverses(st, MockReports(images, draws));
      assert Store.Agree(st, withReports, Store.ImagesPart);
      (Store.SetViewMode(withReports, Report), panel.(isAnalyzing := false))
  }

  /** A submission adds exactly one report per uploaded image ahead of the
      earlier reports, in reverse upload order (the last image's report
      first); navigation's content axis and the other collections stay. */
  lemma SubmitAnalysisOrder(st: Store.AppState, panel: PanelState, draws: seq<ImageDraws>)
    requires |draws| == |st.uploadedImages| > 0
    requires forall i :: 0 <= i < |draws| ==> ValidDraws(draws[i])
    ensures SubmitAnalysis(st, panel, draws).0.photoReports
            == Reverse(MockReports(st.uploadedImages, draws)) + st.photoReports
  {
    AddPhotoReportsReverses(st, MockReports(st.uploadedImages, draws));
  }

  /** Submission touches only the report list and the view mode. */
  lemma SubmitAnalysisFrame(st: Store.AppState, panel: PanelState, draws: seq<ImageDraws>)
    requires |draws| == |st.uploadedImages| > 0
    requires forall i :: 0 <= i < |draws| ==> ValidDraws(draws[i])
    ensures var s := SubmitAnalysis(st, panel, draws).0;
            forall part :: part != Store.PhotoReportsPart && part != Store.ViewModePart ==>
              Store.Agree(st, s, part)
  {
    var reports := MockReports(st.uploadedImages, draws);
    var withReports := AddPhotoReports(st, reports);
    AddPhotoReportsReverses(st, reports);
    var s := SubmitAnalysis(st, panel, draws).0;
    assert s == Store.SetViewMode(withReports, Report);
    forall part | part != Store.PhotoReportsPart && part != Store.ViewModePart
      ensures Store.Agree(st, s, part)
    {
      assert Store.Agree(st, withReports, part);
      assert Store.Agree(withReports, s, part);
    }
  }



  /** Every report a submission adds is a completed one for its image, with a
      single detection whose confidence the mock keeps within [70, 99]. */
  lemma SubmittedReportsShape(st: Store.AppState, panel: PanelState, draws: seq<ImageDraws>, k: nat)
    requires |draws| == |st.uploadedImages|
    requires forall i :: 0 <= i < |draws| ==> ValidDraws(draws[i])
    requires k < |st.uploadedImages|
    ensures var rep := SubmitAnalysis(st, panel, draws).0.photoReports[k];
            var image := st.uploadedImages[|st.uploadedImages| - 1 - k];
            && rep.status == Completed
            && |rep.detections| == 1
            && MinMockConfidence <= rep.detections[0].confidence <= MaxMockConfidence
            && rep.imageName == image.name && rep.imageUrl == image.preview
  {
    SubmitAnalysisOrder(st, panel, draws);
  }

  /** The dialog's apply callback: the patch goes to the image being edited,
      and nowhere when no image is open. */
  function ApplyEdit(st: Store.AppState, panel: PanelState, patch: Store.ImagePatch): (r: Store.AppState)
    ensures panel.editing.None? ==> r == st
    ensures panel.editing.Some? ==> r == Store.UpdateImage(st, panel.editing.value.id, patch)
    ensures Store.OnlyChanges(st, r, Store.ImagesPart)
  {
    if panel.editing.Some? then Store.UpdateImage(st, panel.editing.value.id, patch) else st
  }
}

=== FILE: photo_report.dfy ===
/** The photo report card: which detection it leads with, the colour of its
    confidence figure, and which of its blocks are shown. */
module PhotoReportView {
  import opened Wrappers
  import opened Types

  datatype Tone = Destructive | Warning | Success

  /** The detection the card leads with: the first, when there is one. */
  function MainDetection(report: PhotoReport): (d: Option<DiseaseDetection>)
    ensures d.None? <==> |report.detections| == 0
    ensures d.Some? ==> d.value == report.detections[0]
  {
    if |report.detections| == 0 then None else Some(report.detections[0])
  }

  /** The confidence colour. A missing detection compares false against
      both thresholds and so lands on the last branch. */
  function ConfidenceColor(main: Option<DiseaseDetection>): (t: Tone)
    ensures t.Destructive? <==> main.Some? && main.value.confidence >= 80
    ensures t.Warning? <==> main.Some? && 50 <= main.value.confidence < 80
    ensures t.Success? <==> main.None? || main.value.confidence < 50
  {
    match main
    case None => Success
    case Some(d) => if d.confidence >= 80 then Destructive else if d.confidence >= 50 then Warning else Success
  }

  /** The lead detection as the card prints it. */
  datatype DetectionLine = DetectionLine(disease: string, confidence: int, tone: Tone,
                                         plantSpecies: string, affectedPart: string)

  datatype PhotoCard = PhotoCard(
    overlay: bool,
    completedBadge: bool,
    checkIcon: bool,
    statusText: ReportStatus,
    detection: Option<DetectionLine>,
    noDiseaseNote: bool)

  function RenderCard(report: PhotoReport): (c: PhotoCard)
    ensures c.overlay <==> |report.detections| > 0
    ensures c.detection.Some? <==> c.overlay
    ensures c.noDiseaseNote <==> !c.overlay
    ensures c.completedBadge <==> report.status.Completed?
    ensures c.checkIcon == c.completedBadge
    ensures c.detection.Some? ==>
              && c.detection.value.disease == report.detections[0].disease
              && c.detection.value.confidence == report.detections[0].confidence
              && c.detection.value.tone == ConfidenceColor(Some(report.detections[0]))
  {
    var main := MainDetection(report);
    var line := match main
      case None => None
      case Some(d) => Some(DetectionLine(d.disease, d.confidence, ConfidenceColor(main),
                                         report.plantSpecies, report.affectedPart));
    PhotoCard(
      overlay := |report.detections| > 0,
      completedBadge := report.status.Completed?,
      checkIcon := report.status.Completed?,
      statusText := report.status,
      detection := line,
      noDiseaseNote := |report.detections| == 0)
  }

  /** A card shows exactly one of the detection block and the
      "no disease detected" note. */
  lemma CardShowsOneOutcome(report: PhotoReport)
    ensures RenderCard(report).detection.Some? != RenderCard(report).noDiseaseNote
  {
  }

  /** A higher confidence is never coloured milder. */
  lemma ColorMonotone(d: DiseaseDetection, e: DiseaseDetection)
    requires d.confidence <= e.confidence
    ensures ConfidenceColor(Some(d)).Destructive? ==> ConfidenceColor(Some(e)).Destructive?
    ensures ConfidenceColor(Some(e)).Success? ==> ConfidenceColor(Some(d)).Success?
  {
  }
}

=== FILE: preview.dfy ===
/** The video preview card's size and duration labels. */
module PreviewLabels {
  import opened Wrappers
  import opened Text
  import opened Arith

  const Kibi: nat := 1024
  const Mebi: nat := 1024 * 1024

  /** `t` tenths is `num / den` to the nearest tenth, ties going up: the
      rounding `x.toFixed(1)` applies to an exactly representable `x`. */
  predicate NearestTenth(num: nat, den: nat, t: nat) {
    2 * den * t <= 20 * num + den < 2 * den * (t + 1)
  }

  /** A quotient of at least one shows at least 1.0, and one below 1024
      shows at most 1024.0. */
  lemma NearestTenthBounds(num: nat, den: nat, t: nat)
    requires den > 0 && NearestTenth(num, den, t)
    ensures den <= num ==> 10 <= t
    ensures num < 1024 * den ==> t <= 10240
  {
    if den <= num {
      assert den * 21 < den * (2 * t + 2);
      MulCancel(den, 21, 2 * t + 2);
    }
    if num < 1024 * den {
      assert den * (2 * t) < den * 20481;
      MulCancel(den, 2 * t, 20481);
    }
  }

  /** `x.toFixed(1)` for the exact quotient `num / den`, in tenths. */
  function Tenths(num: nat, den: nat): (t: nat)
    requires den > 0
    ensures NearestTenth(num, den, t)
  {
    (20 * num + den) / (2 * den)
  }

  /** A decimal figure with exactly one fractional digit: digits, a point,
      one digit. */
  predicate DecimalShaped(fig: string) {
    && |fig| >= 3 && fig[|fig| - 2] == '.' && IsDigit(fig[|fig| - 1])
    && forall i :: 0 <= i < |fig| - 2 ==> IsDigit(fig[i])
  }

  /** The number of tenths a decimal figure reads as. */
  function ReadTenths(fig: string): nat
    requires DecimalShaped(fig)
  {
    10 * ParseNat(fig[..|fig| - 2]) + DigitValue(fig[|fig| - 1])
  }

  /** A count of tenths written as a decimal with one fractional digit; the
      whole part has no leading zero, so the figure starts with '0' only as
      "0.d", for fewer than ten tenths. */
  function DecimalText(t: nat): (s: string)
    ensures DecimalShaped(s) && ReadTenths(s) == t
    ensures s[0] == '0' <==> t < 10
    ensures s[0] == '0' ==> |s| == 3
  {
    var whole := NatToString(t / 10);
    ParseNatToString(t / 10);
    DigitRoundTrip(t % 10);
    NatToStringLeadingZero(t / 10);
    var s := whole + "." + [DigitChar(t % 10)];
    assert s[..|s| - 2] == whole;
    assert s[0] == whole[0] && |s| == |whole| + 2;
    s
  }

  predicate EndsWith(text: string, suffix: string) {
    |suffix| <= |text| && text[|text| - |suffix|..] == suffix
  }

  /** A figure followed by a unit: the character before the unit's space is
      a digit, so a shorter unit never reads as a longer one. */
  lemma {:induction false} UnitSuffix(figure: string, unit: string, other: string)
    requires |figure| >= 1 && IsDigit(figure[|figure| - 1])
    requires |unit| == 2 && |other| == 2 && unit[0] != ' ' && unit[1] == 'B' && other[1] == 'B'
    ensures EndsWith(figure + " " + unit, " " + unit)
    ensures other != unit ==> !EndsWith(figure + " " + unit, " " + other)
    ensures !EndsWith(figure + " " + unit, " B")
  {
    var s := figure + " " + unit;
    assert s[|s| - 3..] == " " + unit;
    assert s[|s| - 2..] == unit;
    assert s[|s| - 4] == figure[|figure| - 1];
  }

  lemma ByteUnitSuffix(figure: string)
    requires |figure| >= 1 && IsDigit(figure[|figure| - 1])
    ensures EndsWith(figure + " B", " B")
    ensures !EndsWith(figure + " B", " KB") && !EndsWith(figure + " B", " MB")
  {
    var s := figure + " B";
    assert s[|s| - 2..] == " B";
    assert s[|s| - 3] == figure[|figure| - 1];
  }

  /** `formatSize`: whole bytes below a kibibyte, otherwise kibibytes or
      mebibytes to one decimal. The unit shown tells the three ranges apart. */
  function FormatSize(bytes: nat): (s: string)
    ensures EndsWith(s, " B") <==> bytes < Kibi
    ensures EndsWith(s, " KB") <==> Kibi <= bytes < Mebi
    ensures EndsWith(s, " MB") <==> Mebi <= bytes
    ensures s[0] == '0' <==> bytes == 0
  {
    if bytes < Kibi then
      ByteUnitSuffix(NatToString(bytes));
      NatToStringLeadingZero(bytes);
      assert (NatToString(bytes) + " B")[0] == NatToString(bytes)[0];
      NatToString(bytes) + " B"
    else if bytes < Mebi then
      var d := DecimalText(Tenths(bytes, Kibi));
      NearestTenthBounds(bytes, Kibi, Tenths(bytes, Kibi));
      UnitSuffix(d, "KB", "MB");
      assert (d + " KB")[0] == d[0];
      assert d + " KB" == d + " " + "KB";
      d + " KB"
    else
      var d := DecimalText(Tenths(bytes, Mebi));
      NearestTenthBounds(bytes, Mebi, Tenths(bytes, Mebi));
      UnitSuffix(d, "MB", "KB");
      assert (d + " MB")[0] == d[0];
      assert d + " MB" == d + " " + "MB";
      d + " MB"
  }

  /** Below a kibibyte the label's figure reads back as the byte count;
      above it, the figure before the unit is the size in that unit to the
      nearest tenth, and a kilobyte figure lies in [1.0, 1024.0]. */
  lemma {:induction false} SizeFigureReadsBack(bytes: nat)
    ensures bytes < Kibi ==> ParseNat(FormatSize(bytes)[..|FormatSize(bytes)| - 2]) == bytes
    ensures Kibi <= bytes < Mebi ==>
              var fig := FormatSize(bytes)[..|FormatSize(bytes)| - 3];
              DecimalShaped(fig) && NearestTenth(bytes, Kibi, ReadTenths(fig))
              && 10 <= ReadTenths(fig) <= 10240
    ensures Mebi <= bytes ==>
              var fig := FormatSize(bytes)[..|FormatSize(bytes)| - 3];
              DecimalShaped(fig) && NearestTenth(bytes, Mebi, ReadTenths(fig))
              && 10 <= ReadTenths(fig)
  {
    var s := FormatSize(bytes);
    if bytes < Kibi {
      assert s[..|s| - 2] == NatToString(bytes);
      ParseNatToString(bytes);
    } else if bytes < Mebi {
      var d := DecimalText(Tenths(bytes, Kibi));
      assert s[..|s| - 3] == d;
      NearestTenthBounds(bytes, Kibi, Tenths(bytes, Kibi));
    } else {
      var d := DecimalText(Tenths(bytes, Mebi));
      assert s[..|s| - 3] == d;
      NearestTenthBounds(bytes, Mebi, Tenths(bytes, Mebi));
    }
  }

  /** The duration badge: unknown and zero both read "--:--"; any other
      duration prints as the editor's `formatTime` clock, minutes unpadded. */
  function FormatDuration(seconds: Option<nat>): (s: string)
    ensures s == "--:--" <==> seconds.None? || seconds.value == 0
    ensures seconds.Some? && seconds.value > 0 ==> ParseClock(s) == Some(seconds.value)
    ensures seconds.Some? && seconds.value > 0 ==> s == FormatClock(seconds.value)
    ensures s[0] == '0' ==> |s| == 4
  {
    if seconds.None? || seconds.value == 0 then "--:--"
    else
      var s := FormatClock(seconds.value);
      ClockRoundTrip(seconds.value);
      assert IsDigit(s[|s| - 1]);
      s
  }
}

=== FILE: router.dfy ===
/** The content router: which of the six panels the main area shows for the
    two navigation axes. */
module Router {
  import opened Wrappers
  import opened Types
  import Store

  datatype Panel =
    | PhotoAnalysisPanel | PhotoReportsPanel
    | VideoAnalysisPanel | VideoReportsPanel
    | StreamingAnalysisPanel | StreamingReportsPanel

  /** The six rules in order, first match wins; `None` is the `null` returned
      when no rule matches. */
  function Route(t: ContentType, m: ViewMode): (r: Option<Panel>)
    ensures r.Some?
    ensures r.value.PhotoAnalysisPanel? || r.value.PhotoReportsPanel? <==> t == Photo
    ensures r.value.VideoAnalysisPanel? || r.value.VideoReportsPanel? <==> t == Video
    ensures r.value.StreamingAnalysisPanel? || r.value.StreamingReportsPanel? <==> t == Streaming
    ensures r.value.PhotoReportsPanel? || r.value.VideoReportsPanel? || r.value.StreamingReportsPanel?
            <==> m == Report
  {
    if t.Photo? && m.Analyse? then Some(PhotoAnalysisPanel)
    else if t.Photo? && m.Report? then Some(PhotoReportsPanel)
    else if t.Video? && m.Analyse? then Some(VideoAnalysisPanel)
    else if t.Video? && m.Report? then Some(VideoReportsPanel)
    else if t.Streaming? && m.Analyse? then Some(StreamingAnalysisPanel)
    else if t.Streaming? && m.Report? then Some(StreamingReportsPanel)
    else assert false; None
  }

  /** The navigation a panel belongs to: the inverse of `Route`. */
  function Axes(p: Panel): (ContentType, ViewMode) {
    match p
    case PhotoAnalysisPanel => (Photo, Analyse)
    case PhotoReportsPanel => (Photo, Report)
    case VideoAnalysisPanel => (Video, Analyse)
    case VideoReportsPanel => (Video, Report)
    case StreamingAnalysisPanel => (Streaming, Analyse)
    case StreamingReportsPanel => (Streaming, Report)
  }

  /** Every panel is reached by exactly the navigation `Axes` names, so the
      routing is a bijection between the six combinations and the six panels. */
  lemma RouteAxesInverse(t: ContentType, m: ViewMode, p: Panel)
    ensures Route(t, m) == Some(p) <==> Axes(p) == (t, m)
  {
  }

  /** Distinct navigation states show distinct panels. */
  lemma RouteInjective(t1: ContentType, m1: ViewMode, t2: ContentType, m2: ViewMode)
    requires Route(t1, m1) == Route(t2, m2)
    ensures t1 == t2 && m1 == m2
  {
    RouteAxesInverse(t1, m1, Route(t1, m1).value);
    RouteAxesInverse(t2, m2, Route(t2, m2).value);
  }

  /** The panel for a store snapshot reads only its two navigation fields. */
  function RouteState(st: Store.AppState): (r: Panel)
    ensures Axes(r) == (st.contentType, st.viewMode)
  {
    RouteAxesInverse(st.contentType, st.viewMode, Route(st.contentType, st.viewMode).value);
    Route(st.contentType, st.viewMode).value
  }

  /** Two snapshots that agree on content type and view mode show the same
      panel, whatever their collections hold. */
  lemma PanelFollowsNavigationOnly(st1: Store.AppState, st2: Store.AppState)
    requires st1.contentType == st2.contentType && st1.viewMode == st2.viewMode
    ensures RouteState(st1) == RouteState(st2)
  {
    RouteAxesInverse(st1.contentType, st1.viewMode, RouteState(st1));
    RouteAxesInverse(st2.contentType, st2.viewMode, RouteState(st2));
  }

  /** Updaters other than the two setters never change the panel shown. */
  lemma UpdatersKeepPanel(st: Store.AppState, a: Store.Action)
    requires !a.SetContentTypeAction? && !a.SetViewModeAction?
    ensures RouteState(Store.Dispatch(st, a)) == RouteState(st)
  {
    var r := Store.Dispatch(st, a);
    Store.DispatchFrame(st, a);
    assert Store.Agree(st, r, Store.ContentTypePart);
    assert Store.Agree(st, r, Store.ViewModePart);
    PanelFollowsNavigationOnly(st, r);
  }

  /** The application opens on the photo upload panel. */
  lemma InitialPanel()
    ensures RouteState(Store.Initial()) == PhotoAnalysisPanel
  {
  }
}

=== FILE: seqs.dfy ===
/** Sequence operations shared by the store and the views: JavaScript's
    `filter`, `slice(0, n)` and the reversal produced by repeated prepends. */
module Seqs {

  /** `a` occurs in `b` in the same relative order (possibly with gaps). */
  predicate IsSubseq<T(==)>(a: seq<T>, b: seq<T>)
    decreases |b|
  {
    if |a| == 0 then true
    else if |b| == 0 then false
    else if a[0] == b[0] then IsSubseq(a[1..], b[1..])
    else IsSubseq(a, b[1..])
  }

  /** The elements of `s` that satisfy `p`, in their original order
      (`Array.prototype.filter`). */
  function Filter<T>(s: seq<T>, p: T -> bool): (r: seq<T>)
    ensures |r| <= |s|
  {
    if |s| == 0 then [] else (if p(s[0]) then [s[0]] else []) + Filter(s[1..], p)
  }

  /** `Filter` keeps every occurrence of a value satisfying `p` and no
      occurrence of any other value. */
  lemma {:induction false} FilterCounts<T(!new)>(s: seq<T>, p: T -> bool)
    ensures forall x :: multiset(Filter(s, p))[x] == if p(x) then multiset(s)[x] else 0
  {
    if |s| > 0 {
      FilterCounts(s[1..], p);
      assert s == [s[0]] + s[1..];
      assert multiset(s) == multiset{s[0]} + multiset(s[1..]);
    }
  }

  /** A value is kept exactly when it occurs and satisfies `p`. */
  lemma FilterMembers<T(!new)>(s: seq<T>, p: T -> bool)
    ensures forall x :: x in Filter(s, p) <==> x in s && p(x)
  {
    FilterCounts(s, p);
    forall x
      ensures x in Filter(s, p) <==> x in s && p(x)
    {
      assert x in Filter(s, p) <==> x in multiset(Filter(s, p));
      assert x in s <==> x in multiset(s);
    }
  }

  /** The survivors keep their original relative order. */
  lemma {:induction false} FilterIsSubseq<T>(s: seq<T>, p: T -> bool)
    ensures IsSubseq(Filter(s, p), s)
  {
    if |s| > 0 {
      FilterIsSubseq(s[1..], p);
      var rest := Filter(s[1..], p);
      if p(s[0]) {
        assert Filter(s, p)[0] == s[0];
        assert Filter(s, p)[1..] == rest;
      } else {
        assert Filter(s, p) == rest;
        SubseqOfTail(rest, s);
      }
    }
  }

  /** When every element passes, `Filter` changes nothing. */
  lemma {:induction false} FilterKeepsAll<T>(s: seq<T>, p: T -> bool)
    ensures (forall i :: 0 <= i < |s| ==> p(s[i])) ==> Filter(s, p) == s
  {
    if |s| > 0 {
      FilterKeepsAll(s[1..], p);
      if forall i :: 0 <= i < |s| ==> p(s[i]) {
        assert forall i :: 0 <= i < |s[1..]| ==> p(s[1..][i]);
        assert s == [s[0]] + s[1..];
      }
    }
  }

  /** `Filter` returns nothing exactly when nothing satisfies the predicate. */
  lemma FilterRejectsAll<T(!new)>(s: seq<T>, p: T -> bool)
    ensures |Filter(s, p)| == 0 <==> forall x :: x in s ==> !p(x)
  {
    FilterMembers(s, p);
    if |Filter(s, p)| > 0 {
      assert Filter(s, p)[0] in Filter(s, p);
    }
  }

  /** A subsequence of the tail of `b` is a subsequence of `b`. */
  lemma {:induction false} SubseqOfTail<T>(a: seq<T>, b: seq<T>)
    requires |b| > 0
    requires IsSubseq(a, b[1..])
    ensures IsSubseq(a, b)
    decreases |b|, 0
  {
    if |a| > 0 && a[0] == b[0] {
      // IsSubseq(a, b) reduces to IsSubseq(a[1..], b[1..]); drop a[0] from a subsequence of b[1..].
      DropHead(a, b[1..]);
    }
  }

  /** Dropping the first element of a subsequence keeps it a subsequence. */
  lemma {:induction false} DropHead<T>(a: seq<T>, b: seq<T>)
    requires |a| > 0
    requires IsSubseq(a, b)
    ensures IsSubseq(a[1..], b)
    decreases |b|, 1
  {
    assert |b| > 0;
    if a[0] == b[0] {
      SubseqOfTail(a[1..], b);
    } else {
      DropHead(a, b[1..]);
      SubseqOfTail(a[1..], b);
    }
  }

  /** The first element `filter` keeps is the first passing element of the
      input: everything before it fails. */
  lemma {:induction false} FilterFirst<T>(s: seq<T>, p: T -> bool)
    requires |Filter(s, p)| > 0
    ensures exists j :: 0 <= j < |s| && s[j] == Filter(s, p)[0] && p(s[j])
                        && forall i :: 0 <= i < j ==> !p(s[i])
  {
    if p(s[0]) {
      assert s[0] == Filter(s, p)[0];
    } else {
      assert Filter(s, p) == Filter(s[1..], p);
      FilterFirst(s[1..], p);
      var j :| 0 <= j < |s[1..]| && s[1..][j] == Filter(s[1..], p)[0] && p(s[1..][j])
               && forall i :: 0 <= i < j ==> !p(s[1..][i]);
      assert s[j + 1] == Filter(s, p)[0];
      forall i | 0 <= i < j + 1
        ensures !p(s[i])
      {
        if i > 0 {
          assert s[i] == s[1..][i - 1];
        }
      }
    }
  }

  /** Concatenation is associative; stated once so that proofs about
      filtered sequences need not rediscover it element by element. */
  lemma ConcatAssoc<T>(a: seq<T>, b: seq<T>, c: seq<T>)
    ensures (a + b) + c == a + (b + c)
  {
  }

  /** A common front survives an append at the back: if `whole` is `front`
      followed by `middle`, and `middle` is `rest` followed by `tail`, then
      `whole` is `front + rest` followed by `tail`. */
  lemma PrefixThenTail<T>(whole: seq<T>, front: seq<T>, middle: seq<T>, rest: seq<T>, tail: seq<T>)
    requires whole == front + middle
    requires middle == rest + tail
    ensures whole == (front + rest) + tail
  {
    ConcatAssoc(front, rest, tail);
  }

  /** A non-empty sequence is its front followed by its last element. */
  lemma SplitLast<T>(s: seq<T>)
    requires |s| > 0
    ensures s == s[..|s| - 1] + [s[|s| - 1]]
  {
  }

  /** Filtering distributes over concatenation. */
  lemma {:induction false} FilterAppend<T(!new)>(a: seq<T>, b: seq<T>, p: T -> bool)
    ensures Filter(a + b, p) == Filter(a, p) + Filter(b, p)
  {
    if |a| == 0 {
      assert a + b == b;
    } else {
      var head := if p(a[0]) then [a[0]] else [];
      assert (a + b)[0] == a[0];
      assert (a + b)[1..] == a[1..] + b;
      assert Filter(a + b, p) == head + Filter(a[1..] + b, p);
      assert Filter(a, p) == head + Filter(a[1..], p);
      FilterAppend(a[1..], b, p);
    }
  }

  /** Filtering twice is filtering once by the conjunction. */
  lemma {:induction false} FilterTwice<T(!new)>(s: seq<T>, p: T -> bool, q: T -> bool, both: T -> bool)
    requires forall x :: both(x) == (p(x) && q(x))
    ensures Filter(Filter(s, p), q) == Filter(s, both)
  {
    if |s| > 0 {
      FilterTwice(s[1..], p, q, both);
      FilterAppend(if p(s[0]) then [s[0]] else [], Filter(s[1..], p), q);
    }
  }

  /** Only the values a predicate takes matter to `Filter`. */
  lemma {:induction false} FilterSamePredicate<T(!new)>(s: seq<T>, p: T -> bool, q: T -> bool)
    requires forall x :: p(x) == q(x)
    ensures Filter(s, p) == Filter(s, q)
  {
    if |s| > 0 {
      FilterSamePredicate(s[1..], p, q);
    }
  }

  /** The first `min(n, |s|)` elements (`slice(0, n)`). */
  function Take<T>(s: seq<T>, n: nat): (r: seq<T>)
    ensures |r| == if |s| <= n then |s| else n
    ensures forall i :: 0 <= i < |r| ==> r[i] == s[i]
  {
    if |s| <= n then s else s[..n]
  }

  /** Cutting a prefix longer than the final cut changes nothing. */
  lemma TakeOfLongerPrefix<T>(a: seq<T>, b: seq<T>, n: nat)
    ensures Take(a + Take(b, n), n) == Take(a + b, n)
  {
    var l := Take(a + Take(b, n), n);
    var r := Take(a + b, n);
    assert |l| == |r|;
    forall i | 0 <= i < |l|
      ensures l[i] == r[i]
    {
      if i >= |a| {
        assert (a + Take(b, n))[i] == Take(b, n)[i - |a|];
      }
    }
  }

  /** The elements of `s` in the opposite order. */
  function Reverse<T>(s: seq<T>): (r: seq<T>)
    ensures |r| == |s|
    ensures forall i :: 0 <= i < |s| ==> r[i] == s[|s| - 1 - i]
  {
    if |s| == 0 then [] else Reverse(s[1..]) + [s[0]]
  }
}

=== FILE: store.dfy ===
/** The application state store: one immutable snapshot holding the two
    navigation axes and the seven collections, and one pure updater per
    operation the provider exposes. Every updater copies the previous
    snapshot and replaces only its own collection; identifiers are not
    checked for uniqueness anywhere, so nothing here assumes them unique. */
module Store {
  import opened Wrappers
  import opened Seqs
  import opened Types

  /** The realtime detection list never holds more than this many entries. */
  const MaxRealtimeDetections: nat := 100

  datatype AppState = AppState(
    contentType: ContentType,
    viewMode: ViewMode,
    uploadedImages: seq<ImageFile>,
    photoReports: seq<PhotoReport>,
    uploadedVideos: seq<VideoFile>,
    videoReports: seq<VideoReport>,
    streamingSources: seq<StreamingSource>,
    realtimeDetections: seq<StreamingDetection>,
    streamingReports: seq<StreamingReport>)

  /** The nine parts of a snapshot, for saying what an updater leaves alone. */
  datatype Part =
    | ContentTypePart | ViewModePart
    | ImagesPart | PhotoReportsPart
    | VideosPart | VideoReportsPart
    | SourcesPart | DetectionsPart | StreamingReportsPart

  predicate Agree(a: AppState, b: AppState, part: Part) {
    match part
    case ContentTypePart => a.contentType == b.contentType
    case ViewModePart => a.viewMode == b.viewMode
    case ImagesPart => a.uploadedImages == b.uploadedImages
    case PhotoReportsPart => a.photoReports == b.photoReports
    case VideosPart => a.uploadedVideos == b.uploadedVideos
    case VideoReportsPart => a.videoReports == b.videoReports
    case SourcesPart => a.streamingSources == b.streamingSources
    case DetectionsPart => a.realtimeDetections == b.realtimeDetections
    case StreamingReportsPart => a.streamingReports == b.streamingReports
  }

  /** `b` equals `a` in every part except possibly `changed`. */
  predicate OnlyChanges(a: AppState, b: AppState, changed: Part) {
    forall part: Part :: part != changed ==> Agree(a, b, part)
  }

  /** The snapshot the provider starts from. */
  function Initial(): (st: AppState)
    ensures st.contentType == Photo && st.viewMode == Analyse
    ensures |st.uploadedImages| == 0 && |st.photoReports| == 0
    ensures |st.uploadedVideos| == 0 && |st.videoReports| == 0
    ensures |st.streamingSources| == 0 && |st.realtimeDetections| == 0
    ensures |st.streamingReports| == 0
  {
    AppState(Photo, Analyse, [], [], [], [], [], [], [])
  }

  // ---------------------------------------------------------------- navigation

  function SetContentType(st: AppState, t: ContentType): (r: AppState)
    ensures r.contentType == t
    ensures OnlyChanges(st, r, ContentTypePart)
    ensures st.contentType == t ==> r == st
  {
    st.(contentType := t)
  }

  function SetViewMode(st: AppState, m: ViewMode): (r: AppState)
    ensures r.viewMode == m
    ensures OnlyChanges(st, r, ViewModePart)
    ensures st.viewMode == m ==> r == st
  {
    st.(viewMode := m)
  }

  /** Setting a navigation axis twice to the same value is setting it once. */
  lemma SettersIdempotent(st: AppState, t: ContentType, m: ViewMode)
    ensures SetContentType(SetContentType(st, t), t) == SetContentType(st, t)
    ensures SetViewMode(SetViewMode(st, m), m) == SetViewMode(st, m)
  {
  }

  // ---------------------------------------------------------------- images

  function AddImages(st: AppState, images: seq<ImageFile>): (r: AppState)
    ensures |r.uploadedImages| == |st.uploadedImages| + |images|
    ensures r.uploadedImages[..|st.uploadedImages|] == st.uploadedImages
    ensures r.uploadedImages[|st.uploadedImages|..] == images
    ensures OnlyChanges(st, r, ImagesPart)
  {
    st.(uploadedImages := st.uploadedImages + images)
  }

  /** The filter callback of `removeImage`: keep images whose id differs. */
  function IdIsNot(id: string): ImageFile -> bool {
    (img: ImageFile) => img.id != id
  }

  function RemoveImage(st: AppState, id: string): (r: AppState)
    ensures forall img :: img in r.uploadedImages <==> img in st.uploadedImages && img.id != id
    ensures forall img :: multiset(r.uploadedImages)[img]
                          == if img.id == id then 0 else multiset(st.uploadedImages)[img]
    ensures IsSubseq(r.uploadedImages, st.uploadedImages)
    ensures (forall img :: img in st.uploadedImages ==> img.id != id) ==> r.uploadedImages == st.uploadedImages
    ensures r == st.(uploadedImages := r.uploadedImages)
  {
    var images := st.uploadedImages;
    var kept := Filter(images, IdIsNot(id));
    assert forall img :: img in kept <==> img in images && img.id != id by {
      FilterMembers(images, IdIsNot(id));
    }
    assert forall img :: multiset(kept)[img] == if img.id == id then 0 else multiset(images)[img] by {
      FilterCounts(images, IdIsNot(id));
    }
    assert IsSubseq(kept, images) by {
      FilterIsSubseq(images, IdIsNot(id));
    }
    assert (forall img :: img in images ==> img.id != id) ==> kept == images by {
      FilterKeepsAll(images, IdIsNot(id));
    }
    st.(uploadedImages := kept)
  }


  /** `Partial<ImageFile>`: a field is `Some` exactly when the key is present. */
  datatype ImagePatch = ImagePatch(
    id: Option<string>,
    preview: Option<string>,
    name: Option<string>,
    size: Option<nat>,
    mimeType: Option<string>,
    brightness: Option<int>,
    contrast: Option<int>,
    saturation: Option<int>,
    cropData: Option<CropData>)

  const EmptyImagePatch := ImagePatch(None, None, None, None, None, None, None, None, None)

  /** `{ ...img, ...patch }`: every key present in the patch overrides,
      every other field is kept. */
  function Merge(img: ImageFile, patch: ImagePatch): (r: ImageFile)
    ensures patch.brightness.Some? ==> r.brightness == patch.brightness.value
    ensures patch.brightness.None? ==> r.brightness == img.brightness
    ensures patch.contrast.Some? ==> r.contrast == patch.contrast.value
    ensures patch.contrast.None? ==> r.contrast == img.contrast
    ensures patch.saturation.Some? ==> r.saturation == patch.saturation.value
    ensures patch.saturation.None? ==> r.saturation == img.saturation
    ensures patch.id.Some? ==> r.id == patch.id.value
    ensures patch.id.None? ==> r.id == img.id
    ensures patch.preview.Some? ==> r.preview == patch.preview.value
    ensures patch.preview.None? ==> r.preview == img.preview
    ensures patch.name.Some? ==> r.name == patch.name.value
    ensures patch.name.None? ==> r.name == img.name
    ensures patch.size.Some? ==> r.size == patch.size.value
    ensures patch.size.None? ==> r.size == img.size
    ensures patch.mimeType.Some? ==> r.mimeType == patch.mimeType.value
    ensures patch.mimeType.None? ==> r.mimeType == img.mimeType
    ensures patch.cropData.Some? ==> r.cropData == patch.cropData
    ensures patch.cropData.None? ==> r.cropData == img.cropData
    ensures patch == EmptyImagePatch ==> r == img
  {
    ImageFile(
      patch.id.GetOr(img.id),
      patch.preview.GetOr(img.preview),
      patch.name.GetOr(img.name),
      patch.size.GetOr(img.size),
      patch.mimeType.GetOr(img.mimeType),
      patch.brightness.GetOr(img.brightness),
      patch.contrast.GetOr(img.contrast),
      patch.saturation.GetOr(img.saturation),
      if patch.cropData.Some? then patch.cropData else img.cropData)
  }

  /** `{ ...p, ...q }` on patches: a key present in `q` wins. */
  function Combine(p: ImagePatch, q: ImagePatch): ImagePatch {
    ImagePatch(
      if q.id.Some? then q.id else p.id,
      if q.preview.Some? then q.preview else p.preview,
      if q.name.Some? then q.name else p.name,
      if q.size.Some? then q.size else p.size,
      if q.mimeType.Some? then q.mimeType else p.mimeType,
      if q.brightness.Some? then q.brightness else p.brightness,
      if q.contrast.Some? then q.contrast else p.contrast,
      if q.saturation.Some? then q.saturation else p.saturation,
      if q.cropData.Some? then q.cropData else p.cropData)
  }

  /** Merging the same patch twice is merging it once, and merging two patches
      in turn is merging their combination. */
  lemma MergeLaws(img: ImageFile, p: ImagePatch, q: ImagePatch)
    ensures Merge(Merge(img, p), p) == Merge(img, p)
    ensures Merge(Merge(img, p), q) == Merge(img, Combine(p, q))
  {
  }

  function UpdateImage(st: AppState, id: string, patch: ImagePatch): (r: AppState)
    ensures |r.uploadedImages| == |st.uploadedImages|
    ensures forall i :: 0 <= i < |st.uploadedImages| && st.uploadedImages[i].id != id ==>
              r.uploadedImages[i] == st.uploadedImages[i]
    ensures forall i :: 0 <= i < |st.uploadedImages| && st.uploadedImages[i].id == id ==>
              r.uploadedImages[i] == Merge(st.uploadedImages[i], patch)
    ensures OnlyChanges(st, r, ImagesPart)
  {
    var imgs := st.uploadedImages;
    st.(uploadedImages := seq(|imgs|, i requires 0 <= i < |imgs| =>
      if imgs[i].id == id then Merge(imgs[i], patch) else imgs[i]))
  }

  /** An update whose id matches no image leaves the state as it was. */
  lemma UpdateAbsentIdIsNoOp(st: AppState, id: string, patch: ImagePatch)
    requires forall img :: img in st.uploadedImages ==> img.id != id
    ensures UpdateImage(st, id, patch) == st
  {
    var r := UpdateImage(st, id, patch);
    assert forall i :: 0 <= i < |st.uploadedImages| ==> st.uploadedImages[i].id != id;
    assert r.uploadedImages == st.uploadedImages;
  }

  /** Applying the same update twice equals applying it once, even when the
      patch renames the matching images. */
  lemma UpdateImageIdempotent(st: AppState, id: string, patch: ImagePatch)
    ensures UpdateImage(UpdateImage(st, id, patch), id, patch) == UpdateImage(st, id, patch)
  {
    var once := UpdateImage(st, id, patch);
    var twice := UpdateImage(once, id, patch);
    forall i | 0 <= i < |st.uploadedImages|
      ensures twice.uploadedImages[i] == once.uploadedImages[i]
    {
      MergeLaws(st.uploadedImages[i], patch, patch);
    }
    assert twice.uploadedImages == once.uploadedImages;
  }

  function ClearImages(st: AppState): (r: AppState)
    ensures |r.uploadedImages| == 0
    ensures OnlyChanges(st, r, ImagesPart)
  {
    st.(uploadedImages := [])
  }

  function AddPhotoReport(st: AppState, report: PhotoReport): (r: AppState)
    ensures |r.photoReports| == |st.photoReports| + 1
    ensures r.photoReports[0] == report
    ensures r.photoReports[1..] == st.photoReports
    ensures OnlyChanges(st, r, PhotoReportsPart)
  {
    st.(photoReports := [report] + st.photoReports)
  }

  // ---------------------------------------------------------------- videos

  function AddVideos(st: AppState, videos: seq<VideoFile>): (r: AppState)
    ensures |r.uploadedVideos| == |st.uploadedVideos| + |videos|
    ensures r.uploadedVideos[..|st.uploadedVideos|] == st.uploadedVideos
    ensures r.uploadedVideos[|st.uploadedVideos|..] == videos
    ensures OnlyChanges(st, r, VideosPart)
  {
    st.(uploadedVideos := st.uploadedVideos + videos)
  }

  function VideoIdIsNot(id: string): VideoFile -> bool {
    (v: VideoFile) => v.id != id
  }

  function RemoveVideo(st: AppState, id: string): (r: AppState)
    ensures forall v :: v in r.uploadedVideos <==> v in st.uploadedVideos && v.id != id
    ensures forall v :: multiset(r.uploadedVideos)[v]
                        == if v.id == id then 0 else multiset(st.uploadedVideos)[v]
    ensures IsSubseq(r.uploadedVideos, st.uploadedVideos)
    ensures (forall v :: v in st.uploadedVideos ==> v.id != id) ==> r.uploadedVideos == st.uploadedVideos
    ensures r == st.(uploadedVideos := r.uploadedVideos)
  {
    var videos := st.uploadedVideos;
    var kept := Filter(videos, VideoIdIsNot(id));
    assert forall v :: v in kept <==> v in videos && v.id != id by {
      FilterMembers(videos, VideoIdIsNot(id));
    }
    assert forall v :: multiset(kept)[v] == if v.id == id then 0 else multiset(videos)[v] by {
      FilterCounts(videos, VideoIdIsNot(id));
    }
    assert IsSubseq(kept, videos) by {
      FilterIsSubseq(videos, VideoIdIsNot(id));
    }
    assert (forall v :: v in videos ==> v.id != id) ==> kept == videos by {
      FilterKeepsAll(videos, VideoIdIsNot(id));
    }
    st.(uploadedVideos := kept)
  }


  function ClearVideos(st: AppState): (r: AppState)
    ensures |r.uploadedVideos| == 0
    ensures OnlyChanges(st, r, VideosPart)
  {
    st.(uploadedVideos := [])
  }

  function AddVideoReport(st: AppState, report: VideoReport): (r: AppState)
    ensures |r.videoReports| == |st.videoReports| + 1
    ensures r.videoReports[0] == report
    ensures r.videoReports[1..] == st.videoReports
    ensures OnlyChanges(st, r, VideoReportsPart)
  {
    st.(videoReports := [report] + st.videoReports)
  }

  // ---------------------------------------------------------------- streaming

  function AddStreamingSource(st: AppState, source: StreamingSource): (r: AppState)
    ensures |r.streamingSources| == |st.streamingSources| + 1
    ensures r.streamingSources[..|st.streamingSources|] == st.streamingSources
    ensures r.streamingSources[|st.streamingSources|] == source
    ensures OnlyChanges(st, r, SourcesPart)
  {
    st.(streamingSources := st.streamingSources + [source])
  }

  /** Removes the source record only; the media handle it carries is not released. */
  function SourceIdIsNot(id: string): StreamingSource -> bool {
    (src: StreamingSource) => src.id != id
  }

  function RemoveStreamingSource(st: AppState, id: string): (r: AppState)
    ensures forall src :: src in r.streamingSources <==> src in st.streamingSources && src.id != id
    ensures forall src :: multiset(r.streamingSources)[src]
                          == if src.id == id then 0 else multiset(st.streamingSources)[src]
    ensures IsSubseq(r.streamingSources, st.streamingSources)
    ensures (forall src :: src in st.streamingSources ==> src.id != id) ==> r.streamingSources == st.streamingSources
    ensures r == st.(streamingSources := r.streamingSources)
  {
    var sources := st.streamingSources;
    var kept := Filter(sources, SourceIdIsNot(id));
    assert forall src :: src in kept <==> src in sources && src.id != id by {
      FilterMembers(sources, SourceIdIsNot(id));
    }
    assert forall src :: multiset(kept)[src] == if src.id == id then 0 else multiset(sources)[src] by {
      FilterCounts(sources, SourceIdIsNot(id));
    }
    assert IsSubseq(kept, sources) by {
      FilterIsSubseq(sources, SourceIdIsNot(id));
    }
    assert (forall src :: src in sources ==> src.id != id) ==> kept == sources by {
      FilterKeepsAll(sources, SourceIdIsNot(id));
    }
    st.(streamingSources := kept)
  }


  /** Prepends the detection and keeps the newest `MaxRealtimeDetections`. */
  function AddRealtimeDetection(st: AppState, d: StreamingDetection): (r: AppState)
    ensures |r.realtimeDetections| <= MaxRealtimeDetections
    ensures |r.realtimeDetections| ==
              if |st.realtimeDetections| < MaxRealtimeDetections
              then |st.realtimeDetections| + 1 else MaxRealtimeDetections
    ensures r.realtimeDetections[0] == d
    ensures forall i :: 1 <= i < |r.realtimeDetections| ==>
              r.realtimeDetections[i] == st.realtimeDetections[i - 1]
    ensures OnlyChanges(st, r, DetectionsPart)
  {
    st.(realtimeDetections := Take([d] + st.realtimeDetections, MaxRealtimeDetections))
  }

  /** Drops every detection of one source and keeps all others in order. */
  function FromOtherSource(sourceId: string): StreamingDetection -> bool {
    (d: StreamingDetection) => d.sourceId != sourceId
  }

  function ClearRealtimeDetections(st: AppState, sourceId: string): (r: AppState)
    ensures forall d :: d in r.realtimeDetections <==> d in st.realtimeDetections && d.sourceId != sourceId
    ensures forall d :: multiset(r.realtimeDetections)[d]
                        == if d.sourceId == sourceId then 0 else multiset(st.realtimeDetections)[d]
    ensures IsSubseq(r.realtimeDetections, st.realtimeDetections)
    ensures (forall d :: d in st.realtimeDetections ==> d.sourceId != sourceId) ==> r.realtimeDetections == st.realtimeDetections
    ensures |r.realtimeDetections| <= |st.realtimeDetections|
    ensures r == st.(realtimeDetections := r.realtimeDetections)
  {
    var detections := st.realtimeDetections;
    var kept := Filter(detections, FromOtherSource(sourceId));
    assert forall d :: d in kept <==> d in detections && d.sourceId != sourceId by {
      FilterMembers(detections, FromOtherSource(sourceId));
    }
    assert forall d :: multiset(kept)[d] == if d.sourceId == sourceId then 0 else multiset(detections)[d] by {
      FilterCounts(detections, FromOtherSource(sourceId));
    }
    assert IsSubseq(kept, detections) by {
      FilterIsSubseq(detections, FromOtherSource(sourceId));
    }
    assert (forall d :: d in detections ==> d.sourceId != sourceId) ==> kept == detections by {
      FilterKeepsAll(detections, FromOtherSource(sourceId));
    }
    st.(realtimeDetections := kept)
  }


  function AddStreamingReport(st: AppState, report: StreamingReport): (r: AppState)
    ensures |r.streamingReports| == |st.streamingReports| + 1
    ensures r.streamingReports[0] == report
    ensures r.streamingReports[1..] == st.streamingReports
    ensures OnlyChanges(st, r, StreamingReportsPart)
  {
    st.(streamingReports := [report] + st.streamingReports)
  }

  // ---------------------------------------------------------------- invariant

  /** The bound on the realtime list, the one invariant the store maintains. */
  predicate Valid(st: AppState) {
    |st.realtimeDetections| <= MaxRealtimeDetections
  }

  /** Every operation the provider exposes, as data. */
  datatype Action =
    | SetContentTypeAction(contentType: ContentType)
    | SetViewModeAction(viewMode: ViewMode)
    | AddImagesAction(images: seq<ImageFile>)
    | RemoveImageAction(imageId: string)
    | UpdateImageAction(updateId: string, patch: ImagePatch)
    | ClearImagesAction
    | AddPhotoReportAction(photoReport: PhotoReport)
    | AddVideosAction(videos: seq<VideoFile>)
    | RemoveVideoAction(videoId: string)
    | ClearVideosAction
    | AddVideoReportAction(videoReport: VideoReport)
    | AddStreamingSourceAction(source: StreamingSource)
    | RemoveStreamingSourceAction(sourceId: string)
    | AddRealtimeDetectionAction(detection: StreamingDetection)
    | ClearRealtimeDetectionsAction(clearedSourceId: string)
    | AddStreamingReportAction(streamingReport: StreamingReport)

  /** Runs one operation. No operation can break the realtime bound. */
  function Dispatch(st: AppState, a: Action): (r: AppState)
    ensures Valid(st) ==> Valid(r)
  {
    match a
    case SetContentTypeAction(t) => SetContentType(st, t)
    case SetViewModeAction(m) => SetViewMode(st, m)
    case AddImagesAction(images) => AddImages(st, images)
    case RemoveImageAction(id) => RemoveImage(st, id)
    case UpdateImageAction(id, patch) => UpdateImage(st, id, patch)
    case ClearImagesAction => ClearImages(st)
    case AddPhotoReportAction(report) => AddPhotoReport(st, report)
    case AddVideosAction(videos) => AddVideos(st, videos)
    case RemoveVideoAction(id) => RemoveVideo(st, id)
    case ClearVideosAction => ClearVideos(st)
    case AddVideoReportAction(report) => AddVideoReport(st, report)
    case AddStreamingSourceAction(source) => AddStreamingSource(st, source)
    case RemoveStreamingSourceAction(id) => RemoveStreamingSource(st, id)
    case AddRealtimeDetectionAction(d) => AddRealtimeDetection(st, d)
    case ClearRealtimeDetectionsAction(id) => ClearRealtimeDetections(st, id)
    case AddStreamingReportAction(report) => AddStreamingReport(st, report)
  }

  /** The one part of the snapshot each operation writes. */
  function Writes(a: Action): Part {
    match a
    case SetContentTypeAction(_) => ContentTypePart
    case SetViewModeAction(_) => ViewModePart
    case AddImagesAction(_) => ImagesPart
    case RemoveImageAction(_) => ImagesPart
    case UpdateImageAction(_, _) => ImagesPart
    case ClearImagesAction => ImagesPart
    case AddPhotoReportAction(_) => PhotoReportsPart
    case AddVideosAction(_) => VideosPart
    case RemoveVideoAction(_) => VideosPart
    case ClearVideosAction => VideosPart
    case AddVideoReportAction(_) => VideoReportsPart
    case AddStreamingSourceAction(_) => SourcesPart
    case RemoveStreamingSourceAction(_) => SourcesPart
    case AddRealtimeDetectionAction(_) => DetectionsPart
    case ClearRealtimeDetectionsAction(_) => DetectionsPart
    case AddStreamingReportAction(_) => StreamingReportsPart
  }

  /** Every operation writes only its own part. */
  lemma DispatchFrame(st: AppState, a: Action)
    ensures OnlyChanges(st, Dispatch(st, a), Writes(a))
  {
  }

  /** The parts a sequence of actions writes. */
  function WrittenParts(actions: seq<Action>): set<Part>
    decreases |actions|
  {
    if |actions| == 0 then {} else {Writes(actions[0])} + WrittenParts(actions[1..])
  }

  /** `Dispatch` applied to each action in turn; the realtime bound holds
      throughout. */
  function Run(st: AppState, actions: seq<Action>): (r: AppState)
    ensures Valid(st) ==> Valid(r)
    decreases |actions|
  {
    if |actions| == 0 then st else Run(Dispatch(st, actions[0]), actions[1..])
  }

  /** A part that no action of the sequence writes ends as it began. */
  lemma {:induction false} RunFrame(st: AppState, actions: seq<Action>, part: Part)
    requires part !in WrittenParts(actions)
    ensures Agree(st, Run(st, actions), part)
    decreases |actions|
  {
    if |actions| > 0 {
      var next := Dispatch(st, actions[0]);
      DispatchFrame(st, actions[0]);
      assert Agree(st, next, part);
      RunFrame(next, actions[1..], part);
    }
  }

  /** Every snapshot reachable from the initial one keeps the realtime bound. */
  lemma ReachableIsValid(actions: seq<Action>)
    ensures Valid(Run(Initial(), actions))
  {
  }

  lemma OnlyChangesTransitive(a: AppState, b: AppState, c: AppState, part: Part)
    requires OnlyChanges(a, b, part) && OnlyChanges(b, c, part)
    ensures OnlyChanges(a, c, part)
  {
    forall q: Part | q != part
      ensures Agree(a, c, q)
    {
      assert Agree(a, b, q) && Agree(b, c, q);
    }
  }

  // ---------------------------------------------------------------- histories

  /** `AddRealtimeDetection` applied to each of `ds`, first to last. */
  function AddRealtimeDetections(st: AppState, ds: seq<StreamingDetection>): AppState
    decreases |ds|
  {
    if |ds| == 0 then st else AddRealtimeDetections(AddRealtimeDetection(st, ds[0]), ds[1..])
  }

  /** After any run of additions the list is the newest-first history cut to
      the bound. */
  lemma {:induction false} RealtimeHistory(st: AppState, ds: seq<StreamingDetection>)
    requires Valid(st)
    ensures AddRealtimeDetections(st, ds).realtimeDetections
            == Take(Reverse(ds) + st.realtimeDetections, MaxRealtimeDetections)
    ensures OnlyChanges(st, AddRealtimeDetections(st, ds), DetectionsPart)
    decreases |ds|
  {
    if |ds| == 0 {
      assert Reverse(ds) + st.realtimeDetections == st.realtimeDetections;
    } else {
      var next := AddRealtimeDetection(st, ds[0]);
      RealtimeHistory(next, ds[1..]);
      OnlyChangesTransitive(st, next, AddRealtimeDetections(next, ds[1..]), DetectionsPart);
      TakeOfLongerPrefix(Reverse(ds[1..]), [ds[0]] + st.realtimeDetections, MaxRealtimeDetections);
      assert Reverse(ds[1..]) + ([ds[0]] + st.realtimeDetections)
             == Reverse(ds) + st.realtimeDetections;
    }
  }

  /** Once at least `MaxRealtimeDetections` detections have been added, the
      list holds exactly the most recent ones, newest first. */
  lemma RealtimeKeepsNewest(st: AppState, ds: seq<StreamingDetection>)
    requires Valid(st)
    requires |ds| >= MaxRealtimeDetections
    ensures |AddRealtimeDetections(st, ds).realtimeDetections| == MaxRealtimeDetections
    ensures forall i :: 0 <= i < MaxRealtimeDetections ==>
              AddRealtimeDetections(st, ds).realtimeDetections[i] == ds[|ds| - 1 - i]
  {
    RealtimeHistory(st, ds);
    var all := Reverse(ds) + st.realtimeDetections;
    assert forall i :: 0 <= i < |ds| ==> all[i] == ds[|ds| - 1 - i];
  }

  /** One call on the image collection, as the photo panel issues them. */
  datatype ImageOp = AddOp(images: seq<ImageFile>) | RemoveOp(id: string)

  function ApplyImageOp(st: AppState, op: ImageOp): AppState {
    match op
    case AddOp(images) => AddImages(st, images)
    case RemoveOp(id) => RemoveImage(st, id)
  }

  function ReplayImageOps(st: AppState, ops: seq<ImageOp>): AppState
    decreases |ops|
  {
    if |ops| == 0 then st else ReplayImageOps(ApplyImageOp(st, ops[0]), ops[1..])
  }

  /** The ids removed anywhere in `ops`. */
  function RemovedIds(ops: seq<ImageOp>): set<string> {
    if |ops| == 0 then {}
    else (if ops[0].RemoveOp? then {ops[0].id} else {}) + RemovedIds(ops[1..])
  }

  function IdNotIn(ids: set<string>): ImageFile -> bool {
    (img: ImageFile) => img.id !in ids
  }

  function WithoutIds(images: seq<ImageFile>, ids: set<string>): seq<ImageFile> {
    Filter(images, IdNotIn(ids))
  }

  /** The images each addition contributes that no later removal names, in
      the order they were added. */
  function Survivors(ops: seq<ImageOp>): seq<ImageFile> {
    if |ops| == 0 then []
    else if ops[0].AddOp? then WithoutIds(ops[0].images, RemovedIds(ops[1..])) + Survivors(ops[1..])
    else Survivors(ops[1..])
  }

  /** Removing one id and then a set of ids is removing their union. */
  lemma RemoveThenWithout(images: seq<ImageFile>, id: string, later: set<string>)
    ensures WithoutIds(Filter(images, IdIsNot(id)), later) == WithoutIds(images, {id} + later)
  {
    FilterTwice(images, IdIsNot(id), IdNotIn(later), IdNotIn({id} + later));
  }

  /** The survivor decomposition for a sequence that starts with an
      addition, given the decomposition after it. */
  lemma SurvivorsAddStep(before: seq<ImageFile>, ops: seq<ImageOp>, after: seq<ImageFile>)
    requires |ops| > 0 && ops[0].AddOp?
    requires after == WithoutIds(before + ops[0].images, RemovedIds(ops[1..])) + Survivors(ops[1..])
    ensures after == WithoutIds(before, RemovedIds(ops)) + Survivors(ops)
  {
    var later := RemovedIds(ops[1..]);
    var images := ops[0].images;
    assert RemovedIds(ops) == later;
    var kept := WithoutIds(before, later);
    var added := WithoutIds(images, later);
    var rest := Survivors(ops[1..]);
    FilterAppend(before, images, IdNotIn(later));
    assert after == (kept + added) + rest;
    ConcatAssoc(kept, added, rest);
  }

  /** The replay invariant for a sequence that starts with a removal,
      given the invariant for the rest. */
  lemma ReplayRemoveStep(st: AppState, ops: seq<ImageOp>)
    requires |ops| > 0 && ops[0].RemoveOp?
    requires ReplayImageOps(ApplyImageOp(st, ops[0]), ops[1..]).uploadedImages
             == WithoutIds(ApplyImageOp(st, ops[0]).uploadedImages, RemovedIds(ops[1..])) + Survivors(ops[1..])
    ensures ReplayImageOps(st, ops).uploadedImages
            == WithoutIds(st.uploadedImages, RemovedIds(ops)) + Survivors(ops)
  {
    var next := ApplyImageOp(st, ops[0]);
    var rest := ops[1..];
    var later := RemovedIds(rest);
    var id := ops[0].id;
    assert ReplayImageOps(st, ops) == ReplayImageOps(next, rest);
    assert next.uploadedImages == Filter(st.uploadedImages, IdIsNot(id));
    assert RemovedIds(ops) == {id} + later;
    assert Survivors(ops) == Survivors(rest);
    RemoveThenWithout(st.uploadedImages, id, later);
  }

  /** After any sequence of additions and removals, the image collection is
      the earlier images not removed since, followed by each added image that
      no later removal named, all in their original order. */
  lemma {:induction false} ReplayImageOpsSurvivors(st: AppState, ops: seq<ImageOp>)
    ensures ReplayImageOps(st, ops).uploadedImages
            == WithoutIds(st.uploadedImages, RemovedIds(ops)) + Survivors(ops)
    decreases |ops|
  {
    if |ops| == 0 {
      FilterKeepsAll(st.uploadedImages, IdNotIn({}));
    } else {
      ReplayImageOpsSurvivors(ApplyImageOp(st, ops[0]), ops[1..]);
      if ops[0].AddOp? {
        assert ApplyImageOp(st, ops[0]).uploadedImages == st.uploadedImages + ops[0].images;
        SurvivorsAddStep(st.uploadedImages, ops, ReplayImageOps(st, ops).uploadedImages);
      } else {
        ReplayRemoveStep(st, ops);
      }
    }
  }
}

=== FILE: streaming_report.dfy ===
/** The streaming report views: the disease breakdown sorted by count (a
    stable sort, as `Array.prototype.sort` is), the bar scale, the
    detection timeline with its overflow line, the confidence tiers, and the
    report card's top disease. */
module StreamingReportView {
  import opened Wrappers
  import opened Seqs
  import opened Types

  /** Most detections the timeline lists. */
  const TimelineLength: nat := 20

  predicate SortedDesc(s: seq<DiseaseCount>) {
    forall i, j :: 0 <= i < j < |s| ==> s[i].count >= s[j].count
  }

  /** Places `x` after every entry whose count is at least its own. */
  function Insert(sorted: seq<DiseaseCount>, x: DiseaseCount): (r: seq<DiseaseCount>)
    ensures |r| == |sorted| + 1
    ensures multiset(r) == multiset(sorted) + multiset{x}
  {
    if |sorted| == 0 then [x]
    else if sorted[0].count >= x.count then
      assert sorted == [sorted[0]] + sorted[1..];
      [sorted[0]] + Insert(sorted[1..], x)
    else [x] + sorted
  }

  predicate AllAtMost(s: seq<DiseaseCount>, bound: nat) {
    forall i :: 0 <= i < |s| ==> s[i].count <= bound
  }

  /** A descending list headed by an entry at least as large as all of it. */
  lemma ConsSorted(h: DiseaseCount, s: seq<DiseaseCount>)
    requires SortedDesc(s) && AllAtMost(s, h.count)
    ensures SortedDesc([h] + s)
  {
    var t := [h] + s;
    forall i, j | 0 <= i < j < |t|
      ensures t[i].count >= t[j].count
    {
      assert t[j] == s[j - 1];
      if i > 0 {
        assert t[i] == s[i - 1];
      }
    }
  }

  /** Inserting below a bound stays below it. */
  lemma {:induction false} InsertBounded(sorted: seq<DiseaseCount>, x: DiseaseCount, bound: nat)
    requires AllAtMost(sorted, bound) && x.count <= bound
    ensures AllAtMost(Insert(sorted, x), bound)
  {
    if |sorted| > 0 && sorted[0].count >= x.count {
      InsertBounded(sorted[1..], x, bound);
      assert Insert(sorted, x) == [sorted[0]] + Insert(sorted[1..], x);
    }
  }

  lemma {:induction false} InsertKeepsSorted(sorted: seq<DiseaseCount>, x: DiseaseCount)
    requires SortedDesc(sorted)
    ensures SortedDesc(Insert(sorted, x))
  {
    if |sorted| > 0 {
      var h := sorted[0];
      if h.count >= x.count {
        var rest := sorted[1..];
        InsertKeepsSorted(rest, x);
        InsertBounded(rest, x, h.count);
        ConsSorted(h, Insert(rest, x));
      } else {
        ConsSorted(x, sorted);
      }
    }
  }

  /** An entry no larger than every entry lands at the end. */
  lemma {:induction false} InsertSmallest(sorted: seq<DiseaseCount>, x: DiseaseCount)
    requires forall i :: 0 <= i < |sorted| ==> sorted[i].count >= x.count
    ensures Insert(sorted, x) == sorted + [x]
  {
    if |sorted| > 0 {
      InsertSmallest(sorted[1..], x);
    }
  }

  /** `sort((a, b) => b.count - a.count)`: non-increasing by count. */
  function SortByCount(s: seq<DiseaseCount>): (r: seq<DiseaseCount>)
    ensures |r| == |s|
    ensures SortedDesc(r)
    ensures multiset(r) == multiset(s)
  {
    if |s| == 0 then []
    else
      SplitLast(s);
      var init := SortByCount(s[..|s| - 1]);
      InsertKeepsSorted(init, s[|s| - 1]);
      Insert(init, s[|s| - 1])
  }

  function HasCount(c: nat): DiseaseCount -> bool {
    (e: DiseaseCount) => e.count == c
  }

  /** Filtering a sequence that starts with `h`. */
  lemma FilterCons(h: DiseaseCount, t: seq<DiseaseCount>, p: DiseaseCount -> bool)
    ensures Filter([h] + t, p) == (if p(h) then [h] else []) + Filter(t, p)
  {
    assert ([h] + t)[0] == h;
    assert ([h] + t)[1..] == t;
  }

  /** An entry larger than the head goes in front, and no entry of the
      rest ties with it. */
  lemma {:induction false} InsertInFrontTies(sorted: seq<DiseaseCount>, x: DiseaseCount, c: nat)
    requires SortedDesc(sorted) && |sorted| > 0 && sorted[0].count < x.count
    ensures Filter(Insert(sorted, x), HasCount(c))
            == Filter(sorted, HasCount(c)) + (if x.count == c then [x] else [])
  {
    var p := HasCount(c);
    FilterCons(x, sorted, p);
    if x.count == c {
      assert forall i :: 0 <= i < |sorted| ==> sorted[i].count <= sorted[0].count;
      FilterRejectsAll(sorted, p);
    }
  }

  /** Putting the same head in front of two lists whose tie classes differ
      only by a tail keeps that difference. */
  lemma ConsKeepsTies(h: DiseaseCount, rest: seq<DiseaseCount>, longer: seq<DiseaseCount>,
                      c: nat, tail: seq<DiseaseCount>)
    requires Filter(longer, HasCount(c)) == Filter(rest, HasCount(c)) + tail
    ensures Filter([h] + longer, HasCount(c)) == Filter([h] + rest, HasCount(c)) + tail
  {
    var p := HasCount(c);
    var front: seq<DiseaseCount> := if p(h) then [h] else [];
    FilterCons(h, rest, p);
    FilterCons(h, longer, p);
    PrefixThenTail(Filter([h] + longer, p), front, Filter(longer, p), Filter(rest, p), tail);
  }

  lemma {:induction false} InsertKeepsTies(sorted: seq<DiseaseCount>, x: DiseaseCount, c: nat)
    requires SortedDesc(sorted)
    ensures Filter(Insert(sorted, x), HasCount(c))
            == Filter(sorted, HasCount(c)) + (if x.count == c then [x] else [])
  {
    if |sorted| == 0 {
      FilterCons(x, [], HasCount(c));
    } else if sorted[0].count >= x.count {
      var h := sorted[0];
      var rest := sorted[1..];
      InsertKeepsTies(rest, x, c);
      assert sorted == [h] + rest;
      assert Insert(sorted, x) == [h] + Insert(rest, x);
      ConsKeepsTies(h, rest, Insert(rest, x), c, if x.count == c then [x] else []);
    } else {
      InsertInFrontTies(sorted, x, c);
    }
  }

  /** The sort is stable: entries with equal counts keep their relative order. */
  lemma {:induction false} SortIsStable(s: seq<DiseaseCount>, c: nat)
    ensures Filter(SortByCount(s), HasCount(c)) == Filter(s, HasCount(c))
  {
    if |s| > 0 {
      var init := s[..|s| - 1];
      var last := s[|s| - 1];
      var p := HasCount(c);
      var tail := if last.count == c then [last] else [];
      assert SortByCount(s) == Insert(SortByCount(init), last);
      SortIsStable(init, c);
      InsertKeepsTies(SortByCount(init), last, c);
      assert Filter(SortByCount(s), p) == Filter(init, p) + tail;
      SplitLast(s);
      FilterAppend(init, [last], p);
      FilterCons(last, [], p);
      assert Filter([last], p) == tail;
    }
  }

  /** Sorting an already sorted breakdown changes nothing, so the card's
      in-place sort is harmless to any later sort of the same list. */
  lemma {:induction false} SortSortedIsIdentity(s: seq<DiseaseCount>)
    requires SortedDesc(s)
    ensures SortByCount(s) == s
  {
    if |s| > 0 {
      var init := s[..|s| - 1];
      assert SortedDesc(init);
      SortSortedIsIdentity(init);
      InsertSmallest(init, s[|s| - 1]);
      SplitLast(s);
    }
  }

  /** Every entry of the breakdown is bounded by the first of its sorted copy. */
  lemma SortedHeadIsMax(s: seq<DiseaseCount>)
    requires |s| > 0
    ensures SortByCount(s)[0] in s
    ensures forall i :: 0 <= i < |s| ==> s[i].count <= SortByCount(s)[0].count
  {
    var t := SortByCount(s);
    assert t[0] in multiset(t);
    forall i | 0 <= i < |s|
      ensures s[i].count <= t[0].count
    {
      assert s[i] in multiset(s);
      assert s[i] in t;
    }
  }

  // ---------------------------------------------------------------- detail dialog

  /** The bar scale: the top count, or 1 when there is none or it is 0. */
  function MaxCount(breakdown: seq<DiseaseCount>): (m: nat)
    ensures m >= 1
    ensures forall i :: 0 <= i < |breakdown| ==> breakdown[i].count <= m
    ensures (exists i :: 0 <= i < |breakdown| && breakdown[i].count > 0) ==>
              exists i :: 0 <= i < |breakdown| && breakdown[i].count == m
    ensures (forall i :: 0 <= i < |breakdown| ==> breakdown[i].count == 0) ==> m == 1
  {
    if |breakdown| == 0 then 1
    else
      SortedHeadIsMax(breakdown);
      var top := SortByCount(breakdown)[0];
      if top.count == 0 then 1 else top.count
  }

  /** The "Disease Types" figure: the number of breakdown entries. */
  function DiseaseTypes(report: StreamingReport): (n: nat)
    ensures n == |report.aggregatedStats.diseaseBreakdown|
  {
    |SortByCount(report.aggregatedStats.diseaseBreakdown)|
  }

  /** The detections the timeline lists: the stored ones, in stored order,
      cut at `TimelineLength`. */
  function Timeline(report: StreamingReport): (shown: seq<StreamingDetection>)
    ensures |shown| <= TimelineLength
    ensures |shown| == if |report.detections| < TimelineLength then |report.detections| else TimelineLength
    ensures forall i :: 0 <= i < |shown| ==> shown[i] == report.detections[i]
  {
    Take(report.detections, TimelineLength)
  }

  /** The "+ N more detections" line, present only when the list was cut. */
  function MoreDetections(report: StreamingReport): (more: Option<nat>)
    ensures more.Some? <==> |report.detections| > TimelineLength
    ensures more.Some? ==> more.value > 0
  {
    if |report.detections| > TimelineLength then Some(|report.detections| - TimelineLength) else None
  }

  /** Listed plus announced is every detection of the report. */
  lemma TimelineAccountsForAll(report: StreamingReport)
    ensures |Timeline(report)| + MoreDetections(report).GetOr(0) == |report.detections|
  {
  }

  datatype Tier = High | Medium | Low

  /** The colour tier of a confidence (also used by the live notifications). */
  function ConfidenceTier(confidence: int): (t: Tier)
    ensures t == High <==> confidence >= 90
    ensures t == Medium <==> 70 <= confidence < 90
    ensures t == Low <==> confidence < 70
  {
    if confidence >= 90 then High else if confidence >= 70 then Medium else Low
  }

  /** Raising a confidence never lowers its tier. */
  lemma TierMonotone(a: int, b: int)
    requires a <= b
    ensures ConfidenceTier(a) == High ==> ConfidenceTier(b) == High
    ensures ConfidenceTier(b) == Low ==> ConfidenceTier(a) == Low
  {
  }

  // ---------------------------------------------------------------- card

  /** The card's top disease. Its sort runs in place, so the report it was
      given comes back with a sorted breakdown; nothing else changes, and
      the total shown is the stored figure, not a recount. */
  function TopDisease(report: StreamingReport): (r: (StreamingReport, Option<DiseaseCount>))
    ensures var b := report.aggregatedStats.diseaseBreakdown;
            && (r.1.None? <==> |b| == 0)
            && (r.1.Some? ==> r.1.value in b && forall i :: 0 <= i < |b| ==> b[i].count <= r.1.value.count)
    ensures SortedDesc(r.0.aggregatedStats.diseaseBreakdown)
    ensures multiset(r.0.aggregatedStats.diseaseBreakdown)
            == multiset(report.aggregatedStats.diseaseBreakdown)
    ensures r.0.aggregatedStats.totalDetections == report.aggregatedStats.totalDetections
    ensures r.0.aggregatedStats.avgConfidence == report.aggregatedStats.avgConfidence
    ensures r.0.detections == report.detections && r.0.id == report.id
    ensures r.0 == report.(aggregatedStats := report.aggregatedStats.(
                     diseaseBreakdown := SortByCount(report.aggregatedStats.diseaseBreakdown)))
    ensures r.1.Some? ==> r.1.value == SortByCount(report.aggregatedStats.diseaseBreakdown)[0]
  {
    var b := report.aggregatedStats.diseaseBreakdown;
    var sorted := SortByCount(b);
    var updated := report.(aggregatedStats := report.aggregatedStats.(diseaseBreakdown := sorted));
    if |sorted| == 0 then (updated, None)
    else
      SortedHeadIsMax(b);
      (updated, Some(sorted[0]))
  }

  /** The head of the sorted breakdown is the first entry, in stored order,
      that has the top count. */
  lemma {:induction false} SortedHeadIsFirstOfTies(b: seq<DiseaseCount>)
    requires |b| > 0
    ensures exists j :: 0 <= j < |b| && b[j] == SortByCount(b)[0]
                        && forall i :: 0 <= i < j ==> b[i].count < SortByCount(b)[0].count
  {
    var t := SortByCount(b);
    var c := t[0].count;
    var p := HasCount(c);
    SortIsStable(b, c);
    assert t == [t[0]] + t[1..];
    FilterCons(t[0], t[1..], p);
    assert Filter(b, p)[0] == t[0];
    FilterFirst(b, p);
    SortedHeadIsMax(b);
  }

  /** When several diseases tie for the top count, the card shows the one
      listed first in the stored breakdown, because the sort is stable. */
  lemma TopDiseaseFirstOfTies(report: StreamingReport)
    ensures var b := report.aggregatedStats.diseaseBreakdown;
            var top := TopDisease(report).1;
            top.Some? ==> exists j :: 0 <= j < |b| && b[j] == top.value
                                      && forall i :: 0 <= i < j ==> b[i].count < top.value.count
  {
    var b := report.aggregatedStats.diseaseBreakdown;
    if |b| > 0 {
      SortedHeadIsFirstOfTies(b);
    }
  }

  /** Rendering the card twice is rendering it once. */
  lemma TopDiseaseIdempotent(report: StreamingReport)
    ensures TopDisease(TopDisease(report).0) == TopDisease(report)
  {
    SortSortedIsIdentity(TopDisease(report).0.aggregatedStats.diseaseBreakdown);
  }
}

=== FILE: text.dfy ===
/** Decimal rendering of whole numbers and the `m:ss` clock format that the
    video views use (`${mins}:${secs.toString().padStart(2, '0')}`). */
module Text {
  import opened Wrappers

  predicate IsDigit(c: char) {
    '0' <= c <= '9'
  }

  function DigitChar(d: nat): (c: char)
    requires d < 10
    ensures IsDigit(c)
  {
    "0123456789"[d]
  }

  function DigitValue(c: char): (d: nat)
    requires IsDigit(c)
    ensures d < 10
  {
    (c as int - '0' as int) as nat
  }

  lemma DigitRoundTrip(d: nat)
    requires d < 10
    ensures DigitValue(DigitChar(d)) == d
  {
  }

  /** The decimal text of `n`, as `String(n)` prints a non-negative integer:
      no sign, no leading zeros, "0" for zero. */
  function NatToString(n: nat): (s: string)
    ensures |s| >= 1
    ensures forall i :: 0 <= i < |s| ==> IsDigit(s[i])
    ensures n >= 10 ==> s[0] != '0'
    ensures n < 10 ==> |s| == 1
    decreases n
  {
    if n < 10 then [DigitChar(n)] else NatToString(n / 10) + [DigitChar(n % 10)]
  }

  /** The decimal text starts with '0' only for zero itself. */
  lemma NatToStringLeadingZero(n: nat)
    ensures NatToString(n)[0] == '0' <==> n == 0
  {
    if 0 < n < 10 {
      DigitRoundTrip(n);
    }
  }

  /** The value of a string of decimal digits (the empty string reads as 0). */
  function ParseNat(s: string): (n: nat)
    requires forall i :: 0 <= i < |s| ==> IsDigit(s[i])
  {
    if |s| == 0 then 0 else 10 * ParseNat(s[..|s| - 1]) + DigitValue(s[|s| - 1])
  }

  /** Reading back the decimal text of `n` gives `n`. */
  lemma {:induction false} ParseNatToString(n: nat)
    ensures ParseNat(NatToString(n)) == n
    decreases n
  {
    var s := NatToString(n);
    if n < 10 {
      DigitRoundTrip(n);
    } else {
      ParseNatToString(n / 10);
      assert s[..|s| - 1] == NatToString(n / 10);
      DigitRoundTrip(n % 10);
    }
  }

  /** `n.toString().padStart(2, '0')` for `n < 100`. */
  function PadTwo(n: nat): (s: string)
    requires n < 100
    ensures |s| == 2
    ensures forall i :: 0 <= i < |s| ==> IsDigit(s[i])
    ensures ParseNat(s) == n
  {
    ParseNatToString(n);
    if n < 10 then
      var s := "0" + NatToString(n);
      assert s[..1] == "0";
      s
    else NatToString(n)
  }

  /** Reads the `m:ss` text back: a digit run, a colon, then exactly two digits. */
  function ParseClock(s: string): (r: Option<nat>)
    ensures r.Some? ==> |s| >= 4 && s[|s| - 3] == ':'
  {
    if |s| >= 4 && s[|s| - 3] == ':'
       && (forall i :: 0 <= i < |s| - 3 ==> IsDigit(s[i]))
       && IsDigit(s[|s| - 2]) && IsDigit(s[|s| - 1])
    then
      var secs := ParseNat(s[|s| - 2..]);
      if secs < 60 then Some(60 * ParseNat(s[..|s| - 3]) + secs) else None
    else None
  }

  /** Where the pieces of `m + ":" + t` sit, for a two-character `t`. */
  lemma ClockLayout(m: string, t: string)
    requires |t| == 2
    ensures var s := m + ":" + t;
            && |s| == |m| + 3 && s[..|s| - 3] == m && s[|s| - 3] == ':'
            && s[|s| - 2..] == t && s[|s| - 2] == t[0] && s[|s| - 1] == t[1]
            && forall i :: 0 <= i < |m| ==> s[i] == m[i]
  {
    var s := m + ":" + t;
    assert s[..|s| - 3] == m;
    assert s[|s| - 2..] == t;
  }

  /** The `m:ss` display of a whole number of seconds: minutes unpadded, then a
      colon, then the seconds within the minute as exactly two digits. */
  function FormatClock(seconds: nat): (s: string)
    ensures |s| >= 4 && s[|s| - 3] == ':'
    ensures forall i :: 0 <= i < |s| - 3 ==> IsDigit(s[i])
    ensures ParseNat(s[..|s| - 3]) == seconds / 60
    ensures IsDigit(s[|s| - 2]) && IsDigit(s[|s| - 1])
    ensures ParseNat(s[|s| - 2..]) == seconds % 60 < 60
    ensures s[0] == '0' ==> |s| == 4
  {
    var mins := NatToString(seconds / 60);
    var secs := PadTwo(seconds % 60);
    ParseNatToString(seconds / 60);
    ClockLayout(mins, secs);
    mins + ":" + secs
  }

  /** The clock text determines the number of seconds it was made from. */
  lemma ClockRoundTrip(seconds: nat)
    ensures ParseClock(FormatClock(seconds)) == Some(seconds)
  {
  }

  /** Two different durations never share a clock text. */
  lemma ClockInjective(a: nat, b: nat)
    requires FormatClock(a) == FormatClock(b)
    ensures a == b
  {
    ClockRoundTrip(a);
    ClockRoundTrip(b);
  }

  /** The English plural suffix: "s" unless the count is exactly one. */
  function PluralSuffix(count: int): (s: string)
    ensures s == "" <==> count == 1
    ensures s == "s" <==> count != 1
  {
    if count != 1 then "s" else ""
  }

  /** `text.startsWith(prefix)`. */
  predicate StartsWith(text: string, prefix: string) {
    |prefix| <= |text| && text[..|prefix|] == prefix
  }
}

=== FILE: types.dfy ===
/** The entities of the application: navigation axes, uploaded media, the
    reports produced by the (mocked) analysis and the streaming records.
    Timestamps are whole milliseconds since the epoch, durations whole
    seconds, sizes whole bytes. */
module Types {
  import opened Wrappers

  /** The first navigation axis: which kind of media is shown. */
  datatype ContentType = Photo | Video | Streaming

  /** The second navigation axis: uploading for analysis, or reading reports. */
  datatype ViewMode = Analyse | Report

  datatype ReportStatus = Analyzing | Completed | Error

  datatype SourceKind = Screen | Webcam

  type Timestamp = int

  /** Opaque reference to a live media stream owned by the browser. */
  type MediaHandle = nat

  datatype CropData = CropData(x: int, y: int, width: int, height: int)

  /** Fractions of the image size, so real-valued. */
  datatype BoundingBox = BoundingBox(x: real, y: real, width: real, height: real)

  datatype ImageFile = ImageFile(
    id: string,
    preview: string,
    name: string,
    size: nat,
    mimeType: string,
    brightness: int,
    contrast: int,
    saturation: int,
    cropData: Option<CropData>)

  datatype VideoFile = VideoFile(
    id: string,
    preview: string,
    name: string,
    size: nat,
    mimeType: string,
    duration: Option<nat>,
    thumbnail: Option<string>)

  datatype DiseaseDetection = DiseaseDetection(
    id: string,
    disease: string,
    confidence: int,
    boundingBox: Option<BoundingBox>,
    symptoms: seq<string>,
    recommendations: seq<string>)

  datatype PhotoReport = PhotoReport(
    id: string,
    createdAt: Timestamp,
    imageUrl: string,
    imageName: string,
    plantSpecies: string,
    affectedPart: string,
    detections: seq<DiseaseDetection>,
    status: ReportStatus)

  datatype AnalyzedFrame = AnalyzedFrame(
    id: string,
    timestamp: nat,
    frameUrl: string,
    plantSpecies: string,
    affectedPart: string,
    detections: seq<DiseaseDetection>)

  datatype VideoReport = VideoReport(
    id: string,
    createdAt: Timestamp,
    videoUrl: string,
    videoName: string,
    duration: nat,
    analyzedFrames: seq<AnalyzedFrame>,
    status: ReportStatus)

  datatype StreamingSource = StreamingSource(
    id: string,
    name: string,
    kind: SourceKind,
    createdAt: Timestamp,
    isActive: bool,
    stream: Option<MediaHandle>)

  datatype StreamingDetection = StreamingDetection(
    id: string,
    timestamp: Timestamp,
    disease: string,
    confidence: int,
    sourceId: string)

  datatype DiseaseCount = DiseaseCount(disease: string, count: nat)

  datatype AggregatedStats = AggregatedStats(
    totalDetections: nat,
    diseaseBreakdown: seq<DiseaseCount>,
    avgConfidence: int)

  datatype StreamingReport = StreamingReport(
    id: string,
    sourceId: string,
    sourceName: string,
    startTime: Timestamp,
    endTime: Timestamp,
    detections: seq<StreamingDetection>,
    aggregatedStats: AggregatedStats)
}

=== FILE: video_editor.dfy ===
/** The video edit dialog: trim range, brightness and contrast sliders, reset,
    the play toggle, the timeline guards, and the apply callback, which
    submits an empty patch. Times are real-valued seconds. */
module VideoEditor {
  import opened Wrappers
  import opened Types

  const TrimScale: int := 100
  const AdjustMin: int := 50
  const AdjustMax: int := 150
  const Neutral: int := 100

  datatype Editor = Editor(
    brightness: int,
    contrast: int,
    trimStart: int,
    trimEnd: int,
    isPlaying: bool,
    currentTime: real,
    duration: real)

  /** The trim handles are ordered with at least one step between them, and
      the adjustments sit on their [50, 150] sliders. */
  predicate Valid(e: Editor) {
    && 0 <= e.trimStart < e.trimEnd <= TrimScale
    && AdjustMin <= e.brightness <= AdjustMax
    && AdjustMin <= e.contrast <= AdjustMax
  }

  /** The `useState` initial values: the dialog opens in the reset state,
      paused at the start of a video of unknown (0) length. */
  function Mount(): (e: Editor)
    ensures Valid(e)
    ensures Reset(e) == e
    ensures !e.isPlaying && e.currentTime == 0.0 && e.duration == 0.0
  {
    Editor(Neutral, Neutral, 0, TrimScale, false, 0.0, 0.0)
  }

  /** `handleReset`, and the effect that runs when a new video is shown:
      neutral adjustments and the full trim range; playback is untouched. */
  function Reset(e: Editor): (r: Editor)
    ensures r.brightness == r.contrast == Neutral
    ensures r.trimStart == 0 && r.trimEnd == TrimScale
    ensures Valid(r)
    ensures r.isPlaying == e.isPlaying && r.currentTime == e.currentTime && r.duration == e.duration
  {
    e.(brightness := Neutral, contrast := Neutral, trimStart := 0, trimEnd := TrimScale)
  }

  /** The reset effect fires only when the new `video` prop is present. */
  function VideoChanged(e: Editor, video: Option<VideoFile>): (r: Editor)
    ensures video.None? ==> r == e
    ensures video.Some? ==> && r.brightness == r.contrast == Neutral
                            && r.trimStart == 0 && r.trimEnd == TrimScale
                            && Valid(r)
    ensures r.isPlaying == e.isPlaying && r.currentTime == e.currentTime && r.duration == e.duration
  {
    if video.Some? then Reset(e) else e
  }

  /** Showing a new video forgets every edit made to the previous one: two
      editors that differ only in adjustments and trim end up equal, and
      showing it again changes nothing more. */
  lemma VideoChangedForgetsEdits(e1: Editor, e2: Editor, v: VideoFile, w: VideoFile)
    requires e1.isPlaying == e2.isPlaying && e1.currentTime == e2.currentTime
    requires e1.duration == e2.duration
    ensures VideoChanged(e1, Some(v)) == VideoChanged(e2, Some(w))
    ensures VideoChanged(VideoChanged(e1, Some(v)), Some(w)) == VideoChanged(e1, Some(v))
  {
  }

  /** The events the sliders can raise; each slider only reports integers
      inside its own bounds. */
  datatype SliderEvent =
    | TrimStartTo(start: int)
    | TrimEndTo(end: int)
    | BrightnessTo(brightness: int)
    | ContrastTo(contrast: int)

  /** The bounds the widgets enforce at the moment of the event: the start
      slider runs 0 to trimEnd - 1, the end slider trimStart + 1 to 100. */
  predicate Allowed(e: Editor, ev: SliderEvent) {
    match ev
    case TrimStartTo(v) => 0 <= v <= e.trimEnd - 1
    case TrimEndTo(v) => e.trimStart + 1 <= v <= TrimScale
    case BrightnessTo(v) => AdjustMin <= v <= AdjustMax
    case ContrastTo(v) => AdjustMin <= v <= AdjustMax
  }

  /** A slider's `onValueChange`: the reported value lands in that slider's
      own field and every other field is kept. */
  function Slide(e: Editor, ev: SliderEvent): (r: Editor)
    requires Allowed(e, ev)
    ensures Valid(e) ==> Valid(r)
    ensures Valid(e) ==> r.trimStart < r.trimEnd
    ensures ev.TrimStartTo? ==> r == e.(trimStart := ev.start)
    ensures ev.TrimEndTo? ==> r == e.(trimEnd := ev.end)
    ensures ev.BrightnessTo? ==> r == e.(brightness := ev.brightness)
    ensures ev.ContrastTo? ==> r == e.(contrast := ev.contrast)
  {
    match ev
    case TrimStartTo(v) => e.(trimStart := v)
    case TrimEndTo(v) => e.(trimEnd := v)
    case BrightnessTo(v) => e.(brightness := v)
    case ContrastTo(v) => e.(contrast := v)
  }

  /** Reset discards any slider move: sliding and then resetting is the
      same as resetting straight away. */
  lemma ResetUndoesSlide(e: Editor, ev: SliderEvent)
    requires Allowed(e, ev)
    ensures Reset(Slide(e, ev)) == Reset(e)
  {
  }

  /** `togglePlay`: nothing without a mounted video element, otherwise the
      playing flag flips. */
  function TogglePlay(e: Editor, mounted: bool): (r: Editor)
    ensures !mounted ==> r == e
    ensures mounted ==> r.isPlaying == !e.isPlaying && r == e.(isPlaying := r.isPlaying)
  {
    if mounted then e.(isPlaying := !e.isPlaying) else e
  }

  /** The timeline position in percent; 0 while the duration is unknown (0). */
  function Progress(e: Editor): (p: real)
    requires e.duration >= 0.0
    ensures e.duration == 0.0 ==> p == 0.0
    ensures e.duration > 0.0 ==> p * e.duration == e.currentTime * 100.0
  {
    if e.duration != 0.0 then e.currentTime / e.duration * 100.0 else 0.0
  }

  /** Dragging the timeline to `value` percent seeks the element only when it
      is mounted and the duration is non-zero; the result is the new time. */
  function Seek(e: Editor, mounted: bool, value: real): (t: Option<real>)
    requires e.duration >= 0.0
    ensures t.Some? <==> mounted && e.duration != 0.0
    ensures t.Some? && 0.0 <= value <= 100.0 ==> 0.0 <= t.value <= e.duration
    ensures t.Some? ==> t.value * 100.0 == value * e.duration
  {
    if mounted && e.duration != 0.0 then Some(value / 100.0 * e.duration) else None
  }

  /** The element's `timeupdate` event: the displayed time follows the
      element's. */
  function TimeUpdate(e: Editor, time: real): (r: Editor)
    ensures r.currentTime == time
    ensures r.(currentTime := e.currentTime) == e
  {
    e.(currentTime := time)
  }

  /** A seek is seen back on the timeline: once the element reports the new
      time, the slider shows the percentage it was dragged to. */
  lemma SeekThenProgress(e: Editor, value: real)
    requires e.duration > 0.0
    ensures Progress(TimeUpdate(e, Seek(e, true, value).value)) == value
  {
    var t := Seek(e, true, value).value;
    var p := Progress(TimeUpdate(e, t));
    assert p * e.duration == value * e.duration;
  }

  /** The element's `ended` event: playback stops and nothing else changes. */
  function Ended(e: Editor): (r: Editor)
    ensures !r.isPlaying
    ensures r.(isPlaying := e.isPlaying) == e
  {
    e.(isPlaying := false)
  }

  /** After the video ends, the play button plays again: the next toggle of
      a mounted element sets the flag, whatever it was before the end. */
  lemma EndedThenToggle(e: Editor)
    ensures TogglePlay(Ended(e), true).isPlaying
    ensures TogglePlay(Ended(e), true) == e.(isPlaying := true)
  {
  }

  /** `Partial<VideoFile>`: a field is `Some` exactly when the key is present. */
  datatype VideoPatch = VideoPatch(
    id: Option<string>,
    preview: Option<string>,
    name: Option<string>,
    size: Option<nat>,
    mimeType: Option<string>,
    duration: Option<nat>,
    thumbnail: Option<string>)

  /** `{ ...video, ...patch }`. */
  function MergeVideo(v: VideoFile, p: VideoPatch): VideoFile {
    VideoFile(
      p.id.GetOr(v.id), p.preview.GetOr(v.preview), p.name.GetOr(v.name),
      p.size.GetOr(v.size), p.mimeType.GetOr(v.mimeType),
      if p.duration.Some? then p.duration else v.duration,
      if p.thumbnail.Some? then p.thumbnail else v.thumbnail)
  }

  /** `handleApply`'s payload: the empty object, whatever the sliders say;
      merged into any video it changes nothing. */
  function ApplyPayload(e: Editor): (p: VideoPatch)
    ensures forall v :: MergeVideo(v, p) == v
  {
    VideoPatch(None, None, None, None, None, None, None)
  }
}

=== FILE: video_report.dfy ===
/** The video report card (average confidence, primary detection, status
    label) and the report detail dialog (frame selection, prev/next
    navigation and the play toggle). */
module VideoReportView {
  import opened Wrappers
  import opened Types

  // ---------------------------------------------------------------- card

  /** `Math.round(a / b)`: the nearest integer, halves rounded up. */
  function RoundDiv(a: int, b: nat): (r: int)
    requires b > 0
    ensures b * (2 * r - 1) <= 2 * a < b * (2 * r + 1)
  {
    var r := (2 * a + b) / (2 * b);
    assert 2 * b * r <= 2 * a + b < 2 * b * r + 2 * b;
    r
  }

  /** A frame's contribution to the average: its first detection's
      confidence, or 0 when it has none. */
  function FirstConfidence(f: AnalyzedFrame): int {
    if |f.detections| > 0 then f.detections[0].confidence else 0
  }

  function SumFirstConfidences(frames: seq<AnalyzedFrame>): int {
    if |frames| == 0 then 0 else FirstConfidence(frames[0]) + SumFirstConfidences(frames[1..])
  }

  /** The card's average: 0 without frames, otherwise the first-detection
      confidences averaged and rounded to the nearest integer. */
  function AvgConfidence(frames: seq<AnalyzedFrame>): (r: int)
    ensures |frames| == 0 ==> r == 0
    ensures |frames| > 0 ==>
              |frames| * (2 * r - 1) <= 2 * SumFirstConfidences(frames) < |frames| * (2 * r + 1)
  {
    if |frames| > 0 then RoundDiv(SumFirstConfidences(frames), |frames|) else 0
  }

  /** Percentages in, percentage out: when every counted confidence lies in
      [0, 100] so does the total, scaled by the frame count. */
  lemma {:induction false} SumBounds(frames: seq<AnalyzedFrame>)
    requires forall i :: 0 <= i < |frames| ==> 0 <= FirstConfidence(frames[i]) <= 100
    ensures 0 <= SumFirstConfidences(frames) <= 100 * |frames|
  {
    if |frames| > 0 {
      assert forall i :: 0 <= i < |frames[1..]| ==> frames[1..][i] == frames[i + 1];
      SumBounds(frames[1..]);
    }
  }

  /** The displayed average is a percentage whenever the confidences are. */
  lemma AvgConfidenceBounds(frames: seq<AnalyzedFrame>)
    requires forall i :: 0 <= i < |frames| ==> 0 <= FirstConfidence(frames[i]) <= 100
    ensures 0 <= AvgConfidence(frames) <= 100
  {
    SumBounds(frames);
  }

  /** The detection the card names: the first detection of the first frame. */
  function PrimaryDetection(report: VideoReport): (r: Option<DiseaseDetection>)
    ensures r.None? <==> |report.analyzedFrames| == 0 || |report.analyzedFrames[0].detections| == 0
    ensures r.Some? ==> r.value in report.analyzedFrames[0].detections
    ensures r.Some? ==> r.value == report.analyzedFrames[0].detections[0]
  {
    if |report.analyzedFrames| > 0 && |report.analyzedFrames[0].detections| > 0
    then Some(report.analyzedFrames[0].detections[0])
    else None
  }

  /** The card's primary detection and its average agree on the first frame:
      that frame adds the primary detection's confidence to the sum, or 0
      when there is none; for a one-frame report the average is exactly it. */
  lemma PrimaryDetectionFeedsAverage(report: VideoReport)
    requires |report.analyzedFrames| > 0
    ensures FirstConfidence(report.analyzedFrames[0])
            == (if PrimaryDetection(report).Some? then PrimaryDetection(report).value.confidence else 0)
    ensures |report.analyzedFrames| == 1 ==>
              AvgConfidence(report.analyzedFrames) == FirstConfidence(report.analyzedFrames[0])
  {
    var frames := report.analyzedFrames;
    if |frames| == 1 {
      assert frames[1..] == [];
      assert SumFirstConfidences(frames) == FirstConfidence(frames[0]);
    }
  }

  /** The badge text: completed and analyzing by name, anything else "Error". */
  function StatusLabel(s: ReportStatus): (text: string)
    ensures s.Completed? <==> text == "Completed"
    ensures s.Analyzing? <==> text == "Analyzing..."
    ensures s.Error? <==> text == "Error"
  {
    if s.Completed? then "Completed" else if s.Analyzing? then "Analyzing..." else "Error"
  }

  // ---------------------------------------------------------------- detail

  /** The dialog's local state: the selected frame and the playing flag. */
  datatype Viewer = Viewer(selected: Option<AnalyzedFrame>, isPlaying: bool)

  /** `findIndex` by id: the first position holding the id, or -1. */
  function FindFrame(frames: seq<AnalyzedFrame>, id: string): (r: int)
    ensures -1 <= r < |frames|
    ensures r == -1 <==> forall i :: 0 <= i < |frames| ==> frames[i].id != id
    ensures r >= 0 ==> frames[r].id == id && forall j :: 0 <= j < r ==> frames[j].id != id
  {
    if |frames| == 0 then -1
    else if frames[0].id == id then 0
    else
      var k := FindFrame(frames[1..], id);
      if k == -1 then -1 else k + 1
  }

  /** `currentFrameIndex`: -1 with nothing selected. */
  function CurrentFrameIndex(frames: seq<AnalyzedFrame>, v: Viewer): (r: int)
    ensures -1 <= r < |frames|
    ensures v.selected.None? ==> r == -1
    ensures v.selected.Some? ==> r == FindFrame(frames, v.selected.value.id)
  {
    if v.selected.Some? then FindFrame(frames, v.selected.value.id) else -1
  }

  /** `jumpToFrame`: select the frame; with a mounted player, also pause. */
  function JumpToFrame(v: Viewer, frame: AnalyzedFrame, mounted: bool): (r: Viewer)
    ensures r.selected == Some(frame)
    ensures mounted ==> !r.isPlaying
    ensures !mounted ==> r.isPlaying == v.isPlaying
  {
    Viewer(Some(frame), if mounted then false else v.isPlaying)
  }

  /** `togglePlay`: nothing without a mounted player, otherwise the flag flips. */
  function TogglePlay(v: Viewer, mounted: bool): (r: Viewer)
    ensures r.selected == v.selected
    ensures mounted <==> r.isPlaying != v.isPlaying
  {
    if mounted then v.(isPlaying := !v.isPlaying) else v
  }

  /** The Prev button is live exactly when the selected frame's id is in the
      list and its first occurrence is not the first frame. */
  function PrevDisabled(frames: seq<AnalyzedFrame>, v: Viewer): (b: bool)
    ensures !b <==> && v.selected.Some? && |frames| > 0
                    && frames[0].id != v.selected.value.id
                    && exists i :: 0 <= i < |frames| && frames[i].id == v.selected.value.id
  {
    CurrentFrameIndex(frames, v) <= 0
  }

  /** The Next button is live exactly when some frame follows the current
      one. With nothing selected, or a selection missing from the list, the
      index is -1, so Next is live on any non-empty list and leads to the
      first frame. */
  function NextDisabled(frames: seq<AnalyzedFrame>, v: Viewer): (b: bool)
    ensures !b <==> && |frames| > 0
                    && (|| v.selected.None?
                        || (forall i :: 0 <= i < |frames| ==> frames[i].id != v.selected.value.id)
                        || exists i :: 0 <= i < |frames| - 1 && frames[i].id == v.selected.value.id)
  {
    CurrentFrameIndex(frames, v) >= |frames| - 1
  }

  function GoToPrevFrame(frames: seq<AnalyzedFrame>, v: Viewer, mounted: bool): (r: Viewer)
    ensures PrevDisabled(frames, v) ==> r == v
    ensures !PrevDisabled(frames, v) ==>
              r.selected == Some(frames[CurrentFrameIndex(frames, v) - 1])
    ensures r == v || (r.selected.Some? && r.selected.value in frames)
  {
    var i := CurrentFrameIndex(frames, v);
    if i > 0 then JumpToFrame(v, frames[i - 1], mounted) else v
  }

  function GoToNextFrame(frames: seq<AnalyzedFrame>, v: Viewer, mounted: bool): (r: Viewer)
    ensures NextDisabled(frames, v) ==> r == v
    ensures !NextDisabled(frames, v) ==>
              r.selected == Some(frames[CurrentFrameIndex(frames, v) + 1])
    ensures r == v || (r.selected.Some? && r.selected.value in frames)
  {
    var i := CurrentFrameIndex(frames, v);
    if i < |frames| - 1 then JumpToFrame(v, frames[i + 1], mounted) else v
  }

  predicate UniqueIds(frames: seq<AnalyzedFrame>) {
    forall i, j :: 0 <= i < j < |frames| ==> frames[i].id != frames[j].id
  }

  lemma FindFrameAt(frames: seq<AnalyzedFrame>, k: nat)
    requires UniqueIds(frames) && k < |frames|
    ensures FindFrame(frames, frames[k].id) == k
  {
  }

  /** With distinct frame ids, an enabled Prev/Next moves the index by
      exactly one step, and Next followed by Prev returns to the frame
      selected before. */
  lemma {:induction false} NavigationSteps(frames: seq<AnalyzedFrame>, v: Viewer, mounted: bool)
    requires UniqueIds(frames)
    ensures !PrevDisabled(frames, v) ==>
              CurrentFrameIndex(frames, GoToPrevFrame(frames, v, mounted))
              == CurrentFrameIndex(frames, v) - 1
    ensures !NextDisabled(frames, v) ==>
              CurrentFrameIndex(frames, GoToNextFrame(frames, v, mounted))
              == CurrentFrameIndex(frames, v) + 1
    ensures !NextDisabled(frames, v) && CurrentFrameIndex(frames, v) >= 0 ==>
              GoToPrevFrame(frames, GoToNextFrame(frames, v, mounted), mounted).selected
              == Some(frames[CurrentFrameIndex(frames, v)])
  {
    var i := CurrentFrameIndex(frames, v);
    if !PrevDisabled(frames, v) {
      FindFrameAt(frames, i - 1);
    }
    if !NextDisabled(frames, v) {
      FindFrameAt(frames, i + 1);
      if i >= 0 {
        var w := GoToNextFrame(frames, v, mounted);
        assert CurrentFrameIndex(frames, w) == i + 1;
      }
    }
  }
}

=== FILE: wrappers.dfy ===
/** Optional values: the model's stand-in for JavaScript's `undefined` / `null`. */
module Wrappers {

  datatype Option<+T> = None | Some(value: T) {

    /** The wrapped value, or `default` when there is none (JavaScript's `x ?? default`). */
    function GetOr(default: T): (r: T)
      ensures Some? ==> r == value
      ensures None? ==> r == default
    {
      match this
      case Some(v) => v
      case None => default
    }
  }
}
